=== FILE: README.md ===
# Shelfie front-end logic in Dafny

Shelfie is a Next.js/React client for a book-tracking site. It searches and
shows Open Library books, handles friend requests, and has forms for
registration, sign-in and profile editing, all backed by a REST server. This
project models the logic that can be lifted out of those screens:

- **Navbar search** (`navbar.dfy`): `formatSearchQuery`, the three-character
  guard in `searchBooks`, and how results and failures set the state. Also
  each result's link and thumbnail.
- **Open Library normalisers** (`open_library.dfy`): `formatDescription` and
  `formatAuthorBio`, cover and photo URLs, the route id, the first author's
  key, and the two read-more flags.
- **Book page through the backend** (`book_page.dfy`): the backend paths,
  the author lookup, and the "About the Author" heading and button.
- **Book component talking to the catalogue** (`book_component.dfy`): the
  catalogue URLs, the fetch errors, and the unnormalised bio it renders.
- **Friend-requests modal** (`friend_requests.dfy`): the `requestStatus` map,
  modelled as a state machine over clicks and the replies to their posts,
  which may arrive in any order.
- **Forms** (`forms.dfy`, `register.dfy`, `sign_in.dfy`, `profile_edit.dfy`):
  - the schemas' rules, as issue lists and as predicates;
  - the message shown under each field;
  - the submit handlers and their payloads;
  - the profile prefill;
  - the photo-crop state.
- **`apiPost`** (`api.dfy`): the base URL and how a reply becomes a returned
  body or a thrown error.

The JavaScript built-ins these rely on are modelled in `js_string.dfy` and
`uri_component.dfy`:

- `trim`;
- `.length` in UTF-16 code units;
- the decimal rendering of integers;
- `encodeURIComponent` and `decodeURIComponent`, following the UTF-8 and
  percent-encoding rules of section 2.5 of RFC 3986.

`wrappers.dfy` holds `Option` and `Result`.

Strings are Dafny strings, whose characters are Unicode scalar values. A
JavaScript string is therefore modelled only when it is well formed (no lone
surrogate). `.length` counts a character outside the Basic Multilingual Plane
as two units. Server replies, the email check of the schema library, and the
environment variable are parameters of the operations that use them.

## Model

| member | source | states |
|---|---|---|
| JsString.Trim | src/components/Navbar/Navbar.tsx:24 | `trim()` leaves no whitespace at either end, returns an already-trimmed string unchanged, and returns `""` exactly for all-whitespace input |
| JsString.TrimCutsOnlyWhitespace | src/components/Navbar/Navbar.tsx:24 | the trimmed string is one contiguous piece of the input with only whitespace before and after it |
| JsString.TrimIdempotent | src/components/Navbar/Navbar.tsx:24 | trimming an already-trimmed query changes nothing: `trim()` applied twice is `trim()` applied once |
| JsString.JsLength | src/components/Navbar/Navbar.tsx:38 | `.length` lies between the character count and twice it, and equals the character count for text in the Basic Multilingual Plane; a single character counts one UTF-16 unit, or two (a surrogate pair) when it lies outside that plane |
| JsString.JsLengthAppend | src/components/Navbar/Navbar.tsx:38 | the `.length` of a concatenation is the sum of the parts' lengths, so with the single-character case it fixes `.length` on every string |
| JsString.IntToStringRoundTrip | src/components/Navbar/Navbar.tsx:112 | the decimal text an integer interpolates to parses back to that integer |
| JsString.ParsedTextIsCanonical | src/lib/api.ts:18 | only the text an integer interpolates to parses as one: no leading zeros, no `-0`, no sign without digits |
| JsString.IntToStringInjective | src/lib/api.ts:18 | two statuses give the same `Request failed (<status>)` text exactly when they are equal |
| UriComponent.DecodeEncode | src/components/Navbar/Navbar.tsx:24 | `Decode` (`decodeURIComponent`) undoes `Encode` (`encodeURIComponent`): it gives back `s` for every well-formed string |
| UriComponent.EncodeIsPercentEncoded | src/components/Navbar/Navbar.tsx:24 | `encodeURIComponent` output holds only characters it leaves unescaped and `%` followed by two upper-case hex digits |
| UriComponent.EncodeInjective | src/components/Navbar/Navbar.tsx:24 | two strings have the same `encodeURIComponent` exactly when they are equal |
| UriComponent.Utf8Decodes | src/components/Navbar/Navbar.tsx:24 | the UTF-8 lead byte announces the sequence length, the rest are continuation bytes, and together they carry back the code point without an overlong form |
| Navbar.StripBrackets | src/components/Navbar/Navbar.tsx:24 | removing `[` and `]` leaves no bracket and keeps every other character with its multiplicity; bracket-free text is unchanged |
| Navbar.StripBracketsPerCharacter | src/components/Navbar/Navbar.tsx:24 | the replacement keeps the order of what it keeps: it distributes over concatenation, and drops a single character exactly when it is a bracket, which together fix the result on every string |
| Navbar.FormatSearchQuery | src/components/Navbar/Navbar.tsx:23-24 | the query, `ReplaceAll` of `%20` by `+` over `Encode`, is the form encoding (space as `+`, everything else as `encodeURIComponent`) of the input without brackets and surrounding whitespace, and decoding it (`+` to space, then percent-decoding) gives that text back. It holds only unreserved characters, the marks `!~*'()`, `+` and upper-case `%XX` escapes, never contains `%20`, and never starts or ends with `+` |
| Navbar.FormDecodeFormEncode | src/components/Navbar/Navbar.tsx:24 | reading `+` as a space and then percent-decoding undoes form encoding |
| Navbar.SearchChanged | src/components/Navbar/Navbar.tsx:37-58 | a raw value under three code units clears the results and sends nothing. Otherwise a URL is fetched whose query is exactly the formatted search query of the value, and so decodes to the stripped, trimmed value; parsed `docs` become the results, a failure or a missing `docs` leaves none, and loading ends false |
| Navbar.SearchUrlParts | src/components/Navbar/Navbar.tsx:46-48 | the catalogue reads back exactly the query placed between the endpoint and `&limit=5` |
| Navbar.GuardPrecedesTrimming | src/components/Navbar/Navbar.tsx:38-41 | the guard counts the raw value, so brackets and spaces alone (such as `[ ]`) pass it and send an empty query |
| Navbar.ResultHref | src/components/Navbar/Navbar.tsx:106 | a result links to `/book` followed by exactly its key |
| Navbar.ResultCover | src/components/Navbar/Navbar.tsx:110-114 | the thumbnail is the placeholder exactly when `cover_i` is missing or 0, and otherwise the medium cover URL naming that id |
| OpenLibrary.FormatDescription | src/content/BookContent/BookContent.tsx:56-70 | any string returned is the trimmed carried text. It is non-empty exactly when the text has something besides whitespace, and `""` exactly for a non-empty all-whitespace plain string |
| OpenLibrary.FormatDescriptionCases | src/components/BookContent/BookContent.tsx:30-44 | falsy gives `null`; a string comes back trimmed; an object's `value` comes back trimmed, or `null` when it trims to nothing; an object without a string `value` gives `null` |
| OpenLibrary.FormatAgree | src/content/BookContent/BookContent.tsx:29-35 | `FormatAuthorBio` (`formatAuthorBio`) and `FormatDescription` (`formatDescription`) give the same result on every input |
| OpenLibrary.FormatAuthorBio | src/content/BookContent/BookContent.tsx:29-35 | any bio it returns is trimmed; with `FormatAgree` it is fully determined |
| OpenLibrary.FirstImageId | src/components/BookContent/BookContent.tsx:58-61 | the first image id is used exactly when the list exists, is non-empty, and its first id is truthy (not 0) |
| OpenLibrary.CoverUrlRoundTrip | src/content/BookContent/BookContent.tsx:85-86 | a cover URL names exactly the image id it was built from |
| OpenLibrary.CoverIdIsCanonical | src/content/BookContent/BookContent.tsx:85-86 | any URL that reads back as an id is the cover URL of that id: no other spelling of the number is accepted |
| OpenLibrary.LargeImageUrl | src/components/BookContent/BookContent.tsx:74-77 | a large image URL exists exactly when the first id is truthy, and it names that id |
| OpenLibrary.BookImageUrl | src/content/BookContent/BookContent.tsx:84-87 | the book cover URL exists iff `covers[0]` is truthy, and it is the `-L.jpg` URL of that id |
| OpenLibrary.AuthorImageUrl | src/content/BookContent/BookContent.tsx:101-104 | the author photo URL exists iff `photos[0]` is truthy, and it is the `-L.jpg` URL of that id |
| OpenLibrary.RouteId | src/content/BookContent/BookContent.tsx:39 | the id is the single parameter or the first of a repeated one, and is absent otherwise |
| OpenLibrary.AuthorKey | src/content/BookContent/BookContent.tsx:82 | the key exists exactly when every link down to the first author's `key` is present, and then it is that key |
| OpenLibrary.ToggleDescription | src/content/BookContent/BookContent.tsx:164 | a description click negates the description flag and leaves the author flag alone |
| OpenLibrary.ToggleAuthor | src/content/BookContent/BookContent.tsx:208 | an author click negates the author flag and leaves the description flag alone |
| OpenLibrary.ToggleTwiceRestores | src/content/BookContent/BookContent.tsx:164 | two clicks on one button restore the flags, and the two buttons commute |
| OpenLibrary.ReadMoreLabels | src/content/BookContent/BookContent.tsx:40-42 | both flags start false, so both buttons first read "Read more"; a click swaps its own button between "Read more" and "Read less" and leaves the other label alone |
| BookPage.WorkPath | src/content/BookContent/BookContent.tsx:44-46 | the work path is `/openlibrary/works/` followed by exactly the id |
| BookPage.WorkRequest | src/content/BookContent/BookContent.tsx:76-80 | the work is requested exactly when the route id is truthy, and the request path is `/openlibrary/works/` followed by exactly that id |
| BookPage.AuthorPath | src/content/BookContent/BookContent.tsx:48-52 | the author path is `/openlibrary/authors?key=` followed by the key's `encodeURIComponent` form: text made only of unescaped characters and `%XX` escapes, which decodes back to the key |
| BookPage.AuthorRequest | src/content/BookContent/BookContent.tsx:89-93 | an author lookup is issued exactly when the first author's key is a non-empty string, and its path is `/openlibrary/authors?key=` followed by a percent-encoded text that decodes to that key |
| BookPage.AuthorHeading | src/content/BookContent/BookContent.tsx:185 | the heading is "About the Author" exactly when the bio has something besides whitespace, otherwise "Author" |
| BookPage.ReadMoreFollowsHeading | src/content/BookContent/BookContent.tsx:205-212 | the author read-more button is rendered exactly when the heading reads "About the Author" |
| BookPage.WhitespaceBioIsNoBio | src/content/BookContent/BookContent.tsx:33 | a whitespace-only string bio formats to `""`, not `null`, and the heading reads "Author" |
| BookPage.ClickAuthorReadMore | src/content/BookContent/BookContent.tsx:205-212 | a click flips the author flag exactly when the button is rendered, and never touches the description flag |
| BookComponent.Load | src/components/BookContent/BookContent.tsx:17-27 | a fetch returns the body exactly for an ok reply that parsed; an ok reply that is not JSON fails with the `res.json()` rejection; a non-ok reply throws an `Error` with the given message; a rejection propagates |
| BookComponent.BetweenParts | src/components/BookContent/BookContent.tsx:18-24 | the piece pasted between the catalogue prefix and `.json` is read back unchanged |
| BookComponent.WorkRequest | src/components/BookContent/BookContent.tsx:50-54 | the work is fetched exactly when the route id is truthy, from the URL that names that id between `https://openlibrary.org/works/` and `.json` |
| BookComponent.AuthorRequest | src/components/BookContent/BookContent.tsx:62-66 | the author is fetched exactly when the first author's key is a non-empty string, from the URL that names that key between the host and `.json` |
| BookComponent.FetchErrorsNameTheirResource | src/components/BookContent/BookContent.tsx:19-25 | whatever body a non-ok reply carries, the work fetch throws "Failed to fetch work" and the author fetch throws "Failed to fetch author", so the two errors differ |
| BookComponent.DisplayedBio | src/components/BookContent/BookContent.tsx:173 | the bio paragraph shows the carried string untrimmed, or the raw object when a wrapped `value` is missing or nullish |
| BookComponent.DisplayedBioVersusFormatted | src/components/BookContent/BookContent.tsx:173 | whenever the normalised bio has text, this paragraph shows the same text before trimming |
| BookComponent.ClickAuthorReadMore | src/components/BookContent/BookContent.tsx:175-180 | here the button is always rendered, so a click always flips the author flag |
| FriendRequests.Mount | src/components/FriendRequestsModal/FriendRequestsModal.tsx:21-23 | initially no request has a status, so every request shows its buttons, and no post is in flight |
| FriendRequests.Decide | src/components/FriendRequestsModal/FriendRequestsModal.tsx:26-48 | a successful post adds exactly that id with `accepted`/`declined`; a failed post leaves the map; other entries never change |
| FriendRequests.ExactlyOneShown | src/components/FriendRequestsModal/FriendRequestsModal.tsx:90-117 | each card shows exactly one of the accepted label, the declined label, or the buttons |
| FriendRequests.RenderList | src/components/FriendRequestsModal/FriendRequestsModal.tsx:67-123 | "No friend requests" appears exactly for an empty list; otherwise there is one card per request, in order |
| FriendRequests.Step | src/components/FriendRequestsModal/FriendRequestsModal.tsx:26-117 | closing an open modal hides it, keeps the decisions and invalidates `friendRequests` (a hidden modal has no close button, so closing it does nothing); the parent reopening it changes nothing else. A click sends its post only while its buttons are on screen and leaves the status as it was; the reply to a post in flight applies the decision, open modal or not; anything else is a no-op |
| FriendRequests.DecisionsAreFinal | src/components/FriendRequestsModal/FriendRequestsModal.tsx:102-117 | once a request has a status and none of its posts is still in flight, no sequence of events changes the status, and none of its posts is in flight afterwards: its buttons are gone, so no new post can be sent |
| FriendRequests.DoubleClickPostsTwice | src/components/FriendRequestsModal/FriendRequestsModal.tsx:102-117 | the buttons stay up while a post is in flight, so clicking the same button twice sends two posts |
| FriendRequests.LateSettlementOverwrites | src/components/FriendRequestsModal/FriendRequestsModal.tsx:26-48 | Accept then Decline before either reply, both succeeding with the accept first: the card shows "Request Accepted" and then "Request Declined" |
| FriendRequests.OnlyListedRequestsDecided | src/components/FriendRequestsModal/FriendRequestsModal.tsx:68-117 | when every post in flight is for a listed request, every status that appears later belongs to a listed request |
| FriendRequests.FreshModalDecidesOnlyListed | src/components/FriendRequestsModal/FriendRequestsModal.tsx:21-23 | from a fresh modal, only listed requests ever get a status |
| FriendRequests.ReopenKeepsState | src/components/FriendRequestsModal/FriendRequestsModal.tsx:51-59 | the modal stays mounted while hidden, so a close and reopen keeps every decision and post in flight and only the close refreshes the list |
| FriendRequests.ClosedModalIgnoresClicks | src/components/FriendRequestsModal/FriendRequestsModal.tsx:50-51 | a hidden modal is unchanged by any sequence of clicks |
| Forms.FirstMessage | src/content/RegisterContent/RegisterContent.tsx:78 | a field shows a message exactly when some issue is on its path, and then it is the first such issue's message |
| Forms.MinLength | src/content/RegisterContent/RegisterContent.tsx:20 | `.min(n, msg)` reports its one issue exactly when the value has fewer than `n` code units |
| Forms.MaxLength | src/content/UserProfileEdit/UserProfileEdit.tsx:19 | `.max(n)` reports one issue on its field exactly when the value has more than `n` code units |
| Forms.Check | src/content/RegisterContent/RegisterContent.tsx:24-27 | a refinement reports its one issue exactly when its condition fails |
| Forms.MinOneIsNonEmpty | src/content/RegisterContent/RegisterContent.tsx:14 | `.min(1)` is exactly non-emptiness |
| Register.IssuesIffInvalid | src/content/RegisterContent/RegisterContent.tsx:12-27 | the schema (`Register.Issues`) reports no issue exactly when the names are non-empty, the email passes, both passwords have at least six code units and they are equal |
| Register.MismatchShownUnderConfirmation | src/content/RegisterContent/RegisterContent.tsx:24-27 | "Passwords do not match" is the confirmation field's message exactly when the confirmation is long enough and differs from the password |
| Register.ShortPasswordReported | src/content/RegisterContent/RegisterContent.tsx:20 | the password field shows its length message exactly when the password is under six code units |
| Register.Submit | src/content/RegisterContent/RegisterContent.tsx:38-40 | a form is logged, unchanged and without any request, exactly when it is valid; otherwise it is blocked by exactly the schema's issues |
| SignIn.IssuesIffInvalid | src/content/SignInContent/SignInContent.tsx:15-18 | the schema (`SignIn.Issues`) reports no issue exactly when the email passes and the password has at least six code units |
| Api.ErrorToString | src/content/SignInContent/SignInContent.tsx:50 | an error's string form is its name and message joined by `": "`, or whichever part is non-empty |
| SignIn.ServerErrorText | src/content/SignInContent/SignInContent.tsx:50 | the server error is the thrown error's string form, or the fallback text when that is empty; it is never empty |
| SignIn.SubmitAsWritten | src/content/SignInContent/SignInContent.tsx:34-52 | as written: an invalid form is blocked by the schema's issues; a valid one posts exactly `{email, password}` to `/auth/signIn` with the error cleared, and always ends with an error set |
| SignIn.SuccessfulSignInShowsError | src/content/SignInContent/SignInContent.tsx:48 | as written, a successful sign-in shows "TypeError: setUser is not a function" |
| SignIn.Submit | src/content/SignInContent/SignInContent.tsx:34-52 | an invalid form is blocked by the schema's issues. A valid one posts `{email, password}` to `/auth/signIn` with the error cleared; the error stays clear exactly when the call succeeds, and is otherwise the thrown error's text |
| SignIn.RejectedSignInShowsServerMessage | src/content/SignInContent/SignInContent.tsx:49-50 | a rejected sign-in whose body has a non-empty `error` shows `Error: ` followed by that text |
| SignIn.VersionsDifferOnlyOnSuccess | src/content/SignInContent/SignInContent.tsx:48 | the written and corrected handlers agree on every failed call and differ on every successful one |
| ProfileEdit.IssuesIffInvalid | src/content/UserProfileEdit/UserProfileEdit.tsx:15-20 | the schema (`ProfileEdit.Issues`) reports no issue exactly when first name, last name and birthdate are non-empty and the bio has at most 500 code units |
| ProfileEdit.EmptyBioAccepted | src/content/UserProfileEdit/UserProfileEdit.tsx:19 | an empty bio never invalidates an otherwise complete form |
| ProfileEdit.JsPrefix | src/content/UserProfileEdit/UserProfileEdit.tsx:139 | the prefix is the longest one that fits in `n` code units, and the whole string when it fits |
| ProfileEdit.JsPrefixOfBmp | src/content/UserProfileEdit/UserProfileEdit.tsx:139 | on text in the Basic Multilingual Plane the prefix is the first `n` characters |
| ProfileEdit.Prefill | src/content/UserProfileEdit/UserProfileEdit.tsx:133-142 | without a user nothing changes. Otherwise missing names and bio become `""`, and the birthdate is the longest prefix of the stored one that fits in ten code units, or `""` when absent or empty |
| ProfileEdit.PrefillTakesDatePart | src/content/UserProfileEdit/UserProfileEdit.tsx:139 | a stored date or timestamp prefills as its first ten characters |
| ProfileEdit.PayloadRoundTrip | src/content/UserProfileEdit/UserProfileEdit.tsx:113-118 | renaming `firstName`/`lastName` to `first_name`/`last_name` loses nothing in either direction |
| ProfileEdit.UntouchedPrefillSendsStoredProfile | src/content/UserProfileEdit/UserProfileEdit.tsx:136-141 | saving an untouched prefilled form sends back the stored names, date and bio |
| ProfileEdit.Submit | src/content/UserProfileEdit/UserProfileEdit.tsx:111-123 | an invalid form is blocked by the schema's issues. A valid one is posted to `/user/profile` with a payload that maps back to the form, and the fixed alert appears exactly when the call fails |
| ProfileEdit.EmptyFormBlocked | src/content/UserProfileEdit/UserProfileEdit.tsx:42-47 | the form as first rendered cannot be saved: the names and birthdate report their required messages, and the empty bio reports nothing |
| ProfileEdit.SaveCrop | src/content/UserProfileEdit/UserProfileEdit.tsx:80-100 | without a preview or crop area nothing happens. Otherwise `uploading` is on during the upload and off afterwards, and the preview is cleared exactly when the upload resolved |
| ProfileEdit.SaveThenSaveAgain | src/content/UserProfileEdit/UserProfileEdit.tsx:81-98 | after a save attempt nothing is uploading, and after a successful one a second save does nothing |
| ProfileEdit.ChooseFile | src/content/UserProfileEdit/UserProfileEdit.tsx:102-107 | a chosen file opens the cropper on its object URL; no file changes nothing |
| ProfileEdit.KeyDown | src/content/UserProfileEdit/UserProfileEdit.tsx:125-131 | Escape closes the cropper and any other key changes nothing |
| ProfileEdit.CancelCrop | src/content/UserProfileEdit/UserProfileEdit.tsx:202 | Cancel does what Escape does and leaves nothing to save |
| ProfileEdit.CropComplete | src/content/UserProfileEdit/UserProfileEdit.tsx:53-55 | the reported rectangle replaces the crop area and nothing else |
| ProfileEdit.AvatarSrc | src/content/UserProfileEdit/UserProfileEdit.tsx:151 | the avatar is the stored image, or the default when there is no user or image |
| Api.ApiUrl | src/lib/api.ts:1 | `API_URL` is the variable when it is set and non-empty, otherwise `http://localhost:4000`; it is never empty |
| Api.LoadModule | src/lib/api.ts:1-5 | the module guard never throws |
| Api.RequestUrl | src/lib/api.ts:8 | corrected: the request URL is `API_URL` followed by the path |
| Api.RequestUrlAgreesIffConfigured | src/lib/api.ts:8 | the URL as written (`RequestUrlAsWritten`) agrees with the corrected one exactly when the variable is set and non-empty |
| Api.UnsetVariableRequestsUndefined | src/lib/api.ts:8 | with the variable unset, sign-in posts to `undefined/auth/signIn` instead of the local server |
| Api.ApiPost | src/lib/api.ts:7-22 | an ok reply returns its parsed body, or `null` when it did not parse. A non-ok reply throws an `Error` with `body.error`, or with a message naming the status. A network failure propagates |
| Api.FallbackNamesStatus | src/lib/api.ts:18 | the `Request failed (<status>)` message that `FailureMessage` builds when the body has no `error` parses back to the status |
| Api.StatusMessageIsCanonical | src/lib/api.ts:18 | a message that reads back as a status is exactly the fallback message for that status |

## Left out

- Canvas cropping (`getCroppedImage`, UserProfileEdit.tsx:57-78): browser canvas, image loading and floating-point arcs. `SaveCrop` takes only how the upload settled.
- The network and caching layer (`fetch`, react-query `useQuery`, `invalidateQueries`, the auth bootstrap): replies are parameters. Loading and error screens, and query retries, are not modelled.
- Out-of-order search responses: each search is modelled as settling before the next keystroke. Two overlapping `searchBooks` calls can finish in either order, and that interleaving is not modelled.
- `apiGet`: imported by the auth provider and the book page, but `src/lib/api.ts` does not define it. The book page's backend fetches are therefore modelled only by their paths.
- Session updates: neither sign-in nor logout is modelled as changing the session user, because the auth context provides only `user` and `loading`.
- The schema library's email check is a parameter `isEmail`.
- Schema library messages and ordering follow Zod 3: the password-match refinement runs even when a length check fails, and `.max(500)` uses its default message.
- Ill-formed strings (lone surrogates): Dafny strings cannot hold them. `encodeURIComponent` would throw on them.
- ProfileEdit.JsPrefix: `slice(0, 10)` is modelled on whole characters. It differs from JavaScript only when a surrogate pair straddles the tenth code unit, where JavaScript keeps half a pair.
- JsString.IntToString: integers are printed in plain decimal. JavaScript switches to exponent notation at 10^21, and prints non-integer ids with a fraction; neither is modelled.
- ProfileEdit.SaveCrop: the upload is modelled as settling before any other event. A file chosen after Escape while an upload is running has its new cropper closed by the late `setPreview(null)` (UserProfileEdit.tsx:96); that interleaving is not modelled.
- FriendRequests.Step: the list of requests is fixed while the modal is mounted; a refetch that changes it is not modelled.
- FriendRequests.Decide: request ids are assumed not to be names inherited by plain objects, such as `constructor`. For those, `!requestStatus[id]` is false from the start.
- Values outside the declared TypeScript types are not modelled, for example a numeric description or a `null` element of `covers`.
- Rendering constants are not modelled: markup, class names, placeholder image paths on the book pages, star ratings, shelf counts. Neither is the component page's unconditional "About the Author" heading.
- Timers and routing: the alert's `setTimeout`, and the router redirect.
- Mock data in the friends pages: static lists with no logic.
- The zoom slider and crop position: they only feed the canvas.
- Pure layout components (Banner, Layout, FriendCard, ProfileMenu, the index page), the app shell and the Next configuration.

## Findings

| source | as written | input that shows it | evidently intended | confidence | as-written member | corrected member |
|---|---|---|---|---|---|---|
| src/lib/api.ts:8 | the request URL interpolates `process.env.NEXT_PUBLIC_API_URL` directly, so an unset variable gives `undefined` + path | variable unset, path `/auth/signIn`: the URL is `undefined/auth/signIn` | use `API_URL`, which falls back to `http://localhost:4000` | high; not executed | Api.RequestUrlAsWritten, Api.UnsetVariableRequestsUndefined | Api.RequestUrl |
| src/content/SignInContent/SignInContent.tsx:24 | `setUser` is destructured from the auth context, whose type and value (src/context/AuthProvider.tsx:15-18, :30) provide only `user` and `loading`, so `setUser(res)` throws | any valid form and an ok reply: the server error becomes "TypeError: setUser is not a function" | a successful sign-in leaves the server error clear | high; not executed | SignIn.SubmitAsWritten, SignIn.SuccessfulSignInShowsError | SignIn.Submit |

=== FILE: api.dfy ===
/** The backend wrapper `apiPost`: where the request goes, and how the reply
    becomes a returned body or a thrown error. */
module Api {

  import opened Wrappers
  import opened JsString

  /** A thrown JavaScript error: its `name` and `message`. */
  datatype JsError = JsError(name: string, message: string)

  /** `${err}` for an error object (`Error.prototype.toString`): the name and
      message joined by `": "`, either part alone when the other is empty. */
  function ErrorToString(e: JsError): (s: string)
    ensures e.name == "" ==> s == e.message
    ensures e.name != "" && e.message == "" ==> s == e.name
    ensures e.name != "" && e.message != "" ==> |s| > |e.name| && s[..|e.name|] == e.name && s[|e.name|..] == ": " + e.message
  {
    if e.name == "" then e.message
    else if e.message == "" then e.name
    else e.name + ": " + e.message
  }

  // ---------------------------------------------------------------------------
  // Base URL

  const DefaultApiUrl := "http://localhost:4000"

  /** `API_URL`: the `NEXT_PUBLIC_API_URL` variable when it is set to a
      non-empty string, otherwise the local default. */
  function ApiUrl(env: Option<string>): (u: string)
    ensures u != ""
    ensures env.Some? && env.value != "" ==> u == env.value
    ensures env.None? || env.value == "" ==> u == DefaultApiUrl
  {
    if env.Some? && Truthy(env.value) then env.value else DefaultApiUrl
  }

  /** Loading the module: the `if (!API_URL) throw` guard. It never throws,
      because `API_URL` always has a non-empty value. */
  function LoadModule(env: Option<string>): (r: Result<string, JsError>)
    ensures r.Ok? && r.value == ApiUrl(env)
  {
    var url := ApiUrl(env);
    if !Truthy(url) then Err(JsError("Error", "API_URL environment variable is not defined")) else Ok(url)
  }

  /** A template literal's rendering of a possibly undefined variable. */
  function Interpolate(v: Option<string>): string {
    if v.Some? then v.value else "undefined"
  }

  /** The URL `apiPost` fetches, as written: it interpolates the raw
      environment variable rather than `API_URL`. */
  function RequestUrlAsWritten(env: Option<string>, path: string): string {
    Interpolate(env) + path
  }

  /** The URL `apiPost` evidently means to fetch: `API_URL` followed by the
      path, so the request always goes to a configured or default server. */
  function RequestUrl(env: Option<string>, path: string): (url: string)
    ensures |url| > |path| && url[|url| - |path|..] == path
    ensures url[..|url| - |path|] == ApiUrl(env)
  {
    ApiUrl(env) + path
  }

  /** The written URL agrees with the intended one exactly when the variable
      is set to a non-empty string. */
  lemma RequestUrlAgreesIffConfigured(env: Option<string>, path: string)
    ensures RequestUrlAsWritten(env, path) == RequestUrl(env, path) <==> env.Some? && env.value != ""
  {
    var w := RequestUrlAsWritten(env, path);
    var u := RequestUrl(env, path);
    if env.None? {
      assert w[0] == 'u' && u[0] == 'h';
    } else if env.value == "" {
      assert |w| < |u|;
    }
  }

  /** With the variable unset, sign-in posts to the relative URL
      `undefined/auth/signIn` instead of the local default server. */
  lemma UnsetVariableRequestsUndefined()
    ensures RequestUrlAsWritten(None, "/auth/signIn") == "undefined/auth/signIn"
    ensures RequestUrl(None, "/auth/signIn") == "http://localhost:4000/auth/signIn"
  {
  }

  // ---------------------------------------------------------------------------
  // Reply interpretation

  /** The parsed JSON body; `apiPost` itself only looks at `error`, held here
      as its string form when it is neither `null` nor `undefined`. */
  datatype Json = Json(error: Option<string>, members: map<string, string>)

  /** What `fetch` produced: a rejection (network failure), or a response
      whose body parsed as a JSON object (`Some`) or not, or was `null`
      (`None`). */
  datatype Reply = NetworkError(e: JsError) | Response(ok: bool, status: int, body: Option<Json>)

  const FailurePrefix := "Request failed ("

  /** The message of a non-ok reply: `body.error` when present (even when it
      is empty), otherwise `Request failed (<status>)`. */
  function FailureMessage(status: int, body: Option<Json>): string {
    if body.Some? && body.value.error.Some? then body.value.error.value
    else FailurePrefix + IntToString(status) + ")"
  }

  /** Reads a status back out of a `Request failed (<status>)` message. */
  function StatusOfMessage(m: string): Option<int> {
    if |m| > |FailurePrefix| && m[..|FailurePrefix|] == FailurePrefix && m[|m| - 1] == ')' then
      ParseInt(m[|FailurePrefix|..|m| - 1])
    else
      None
  }

  /** `await apiPost(path, body)`: an ok reply returns its parsed body (`null`
      when it did not parse); a non-ok reply always throws an `Error` whose
      message is the body's `error` or names the status; a network failure
      propagates. */
  function ApiPost(reply: Reply): (r: Result<Option<Json>, JsError>)
    ensures r.Ok? <==> reply.Response? && reply.ok
    ensures r.Ok? ==> r.value == reply.body
    ensures reply.NetworkError? ==> r == Err(reply.e)
    ensures reply.Response? && !reply.ok ==> r.error.name == "Error"
    ensures reply.Response? && !reply.ok && reply.body.Some? && reply.body.value.error.Some? ==>
              r.error.message == reply.body.value.error.value
    ensures reply.Response? && !reply.ok && (reply.body.None? || reply.body.value.error.None?) ==>
              StatusOfMessage(r.error.message) == Some(reply.status)
  {
    match reply
    case NetworkError(e) => Err(e)
    case Response(ok, status, body) =>
      if !ok then
        FallbackNamesStatus(status, body);
        Err(JsError("Error", FailureMessage(status, body)))
      else Ok(body)
  }

  /** Only the exact fallback text reads back as a status, so the status a
      failed call reports pins its message: `Request failed (0404)` names
      no status. */
  lemma StatusMessageIsCanonical(m: string)
    ensures StatusOfMessage(m).Some? ==> m == FailurePrefix + IntToString(StatusOfMessage(m).value) + ")"
  {
    if StatusOfMessage(m).Some? {
      var digits := m[|FailurePrefix|..|m| - 1];
      ParsedTextIsCanonical(digits);
      assert m == m[..|FailurePrefix|] + digits + [m[|m| - 1]];
    }
  }

  lemma FallbackNamesStatus(status: int, body: Option<Json>)
    ensures body.None? || body.value.error.None? ==> StatusOfMessage(FailureMessage(status, body)) == Some(status)
  {
    if body.None? || body.value.error.None? {
      var digits := IntToString(status);
      var m := FailureMessage(status, body);
      assert m == FailurePrefix + digits + ")";
      assert m[..|FailurePrefix|] == FailurePrefix;
      assert m[|FailurePrefix|..|m| - 1] == digits;
      IntToStringRoundTrip(status);
    }
  }

  /** Whether an `apiPost` call returned normally. */
  predicate Succeeded(reply: Reply) {
    ApiPost(reply).Ok?
  }
}

=== FILE: book_component.dfy ===
/** The book component that talks to the catalogue directly
    (components/BookContent): catalogue URLs, the errors thrown on a non-ok
    response, and the unnormalised author bio it renders. */
module BookComponent {

  import opened Wrappers
  import opened JsString
  import opened OpenLibrary
  import Api

  const CatalogueBase := "https://openlibrary.org"
  const WorksBase := CatalogueBase + "/works/"
  const JsonSuffix := ".json"

  function WorkUrl(id: string): string {
    WorksBase + id + JsonSuffix
  }

  /** The author key already starts with `/authors/`, so it is pasted between
      host and `.json` unencoded. */
  function AuthorUrl(key: string): string {
    CatalogueBase + key + JsonSuffix
  }

  /** What the catalogue reads between `prefix` and the `.json` suffix of a
      URL, if the URL has that shape. */
  function Between(url: string, prefix: string): Option<string> {
    if |url| >= |prefix| + |JsonSuffix| && url[..|prefix|] == prefix && url[|url| - |JsonSuffix|..] == JsonSuffix
    then Some(url[|prefix|..|url| - |JsonSuffix|])
    else None
  }

  /** A piece pasted between a prefix and `.json` is read back unchanged. */
  lemma BetweenParts(prefix: string, e: string)
    ensures Between(prefix + e + JsonSuffix, prefix) == Some(e)
  {
    var u := prefix + e + JsonSuffix;
    assert u[..|prefix|] == prefix;
    assert u[|u| - |JsonSuffix|..] == JsonSuffix;
    assert u[|prefix|..|u| - |JsonSuffix|] == e;
  }

  /** The work fetch, issued only for a truthy route id (`enabled: !!id`),
      names that id in the catalogue URL. */
  function WorkRequest(p: RouteParam): (r: Option<string>)
    ensures r.Some? <==> WorkQueryEnabled(p)
    ensures r.Some? ==> Between(r.value, WorksBase) == RouteId(p)
  {
    if WorkQueryEnabled(p) then
      BetweenParts(WorksBase, RouteId(p).value);
      Some(WorkUrl(RouteId(p).value))
    else None
  }

  /** The author fetch, issued only for a truthy first author key
      (`enabled: !!authorId`), names that key in the catalogue URL. */
  function AuthorRequest(work: Option<Work>): (r: Option<string>)
    ensures r.Some? <==> AuthorLookupEnabled(work)
    ensures r.Some? ==> Between(r.value, CatalogueBase) == AuthorKey(work)
  {
    if AuthorLookupEnabled(work) then
      BetweenParts(CatalogueBase, AuthorKey(work).value);
      Some(AuthorUrl(AuthorKey(work).value))
    else None
  }

  /** What a catalogue fetch produced: rejected, or a response whose body
      parsed as JSON (`Some`) or not (`None`). */
  datatype Reply<T> = Rejected(e: Api.JsError) | Response(ok: bool, body: Option<T>)

  /** Why a load failed: the component's own error, a propagated rejection,
      or a body that is not JSON. */
  datatype LoadError = Thrown(e: Api.JsError) | NotJson

  /** `fetchWork` / `fetchAuthor`: a non-ok response throws an `Error` with the
      given message before the body is read. */
  function Load<T>(reply: Reply<T>, failure: string): (r: Result<T, LoadError>)
    ensures r.Ok? <==> reply.Response? && reply.ok && reply.body.Some?
    ensures r.Ok? ==> r.value == reply.body.value
    ensures reply.Response? && !reply.ok ==> r == Err(Thrown(Api.JsError("Error", failure)))
    ensures reply.Rejected? ==> r == Err(Thrown(reply.e))
    ensures reply.Response? && reply.ok && reply.body.None? ==> r == Err(NotJson)
  {
    match reply
    case Rejected(e) => Err(Thrown(e))
    case Response(ok, body) =>
      if !ok then Err(Thrown(Api.JsError("Error", failure)))
      else if body.None? then Err(NotJson)
      else Ok(body.value)
  }

  function FetchWork(reply: Reply<Work>): Result<Work, LoadError> {
    Load(reply, "Failed to fetch work")
  }

  function FetchAuthor(reply: Reply<Author>): Result<Author, LoadError> {
    Load(reply, "Failed to fetch author")
  }

  /** Whatever body a non-ok response carries, the two loaders throw
      before reading it, each with its own message, so the error tells
      which fetch failed. */
  lemma FetchErrorsNameTheirResource(w: Option<Work>, a: Option<Author>)
    ensures FetchWork(Response(false, w)) == Err(Thrown(Api.JsError("Error", "Failed to fetch work")))
    ensures FetchAuthor(Response(false, a)) == Err(Thrown(Api.JsError("Error", "Failed to fetch author")))
    ensures FetchWork(Response(false, w)).error != FetchAuthor(Response(false, a)).error
  {
    assert "Failed to fetch work"[16] != "Failed to fetch author"[16];
  }

  /** What the bio paragraph receives as its child: nothing, a string, or
      the raw object (which React refuses to render). */
  datatype Child = NoChild | TextChild(s: string) | ObjectChild

  /** `authorBio?.value ?? authorBio`: a wrapped value when it is non-nullish,
      otherwise the bio itself, untrimmed. */
  function DisplayedBio(bio: Text): (c: Child)
    ensures c.TextChild? <==> RawText(bio).Some?
    ensures c.TextChild? ==> c.s == RawText(bio).value
    ensures c == ObjectChild <==> bio.Wrapped? && !bio.field.Value?
  {
    match bio
    case Absent => NoChild
    case Plain(s) => TextChild(s)
    case Wrapped(Value(s)) => TextChild(s)
    case Wrapped(_) => ObjectChild
  }

  /** Against the normalised bio of the other book page: whenever that one
      has text, this one shows the same text before trimming. */
  lemma DisplayedBioVersusFormatted(bio: Text)
    ensures FormatDescription(bio).Some? ==> DisplayedBio(bio).TextChild?
                                             && FormatDescription(bio).value == Trim(DisplayedBio(bio).s)
    ensures HasContent(bio) <==> DisplayedBio(bio).TextChild? && !AllWhitespace(DisplayedBio(bio).s)
  {
  }

  /** Here the author "Read more" button is always rendered, so a click
      always flips the author flag. */
  function ClickAuthorReadMore(e: Expansion): (r: Expansion)
    ensures r.author != e.author && r.description == e.description
  {
    ToggleAuthor(e)
  }
}

=== FILE: book_page.dfy ===
/** The book page served through the backend proxy (content/BookContent):
    backend paths for the work and its first author, the author heading, and
    the author "Read more" button, which exists only for a non-empty bio. */
module BookPage {

  import opened Wrappers
  import opened JsString
  import opened UriComponent
  import opened OpenLibrary

  const WorksPath := "/openlibrary/works/"
  const AuthorsPath := "/openlibrary/authors?key="

  /** The backend path of the work with the given route id. */
  function WorkPath(id: string): (p: string)
    ensures |p| >= |WorksPath| && p[..|WorksPath|] == WorksPath && p[|WorksPath|..] == id
  {
    WorksPath + id
  }

  /** The work request, issued only for a truthy route id (`enabled: !!id`),
      carries that id after the works prefix. */
  function WorkRequest(p: RouteParam): (r: Option<string>)
    ensures r.Some? <==> WorkQueryEnabled(p)
    ensures r.Some? ==> |r.value| >= |WorksPath| && r.value[..|WorksPath|] == WorksPath
                        && r.value[|WorksPath|..] == RouteId(p).value
  {
    if WorkQueryEnabled(p) then Some(WorkPath(RouteId(p).value)) else None
  }

  /** The backend path of an author lookup: the key travels percent-encoded
      in the query string and decodes back to itself. */
  function AuthorPath(key: string): (p: string)
    ensures |p| >= |AuthorsPath| && p[..|AuthorsPath|] == AuthorsPath
    ensures IsPercentEncoded(p[|AuthorsPath|..])
    ensures Decode(p[|AuthorsPath|..]) == Some(key)
  {
    DecodeEncode(key);
    EncodeIsPercentEncoded(key);
    assert (AuthorsPath + Encode(key))[|AuthorsPath|..] == Encode(key);
    AuthorsPath + Encode(key)
  }

  /** The author lookup request, issued only when the first author's key is
      a non-empty string. */
  function AuthorRequest(work: Option<Work>): (r: Option<string>)
    ensures r.Some? <==> AuthorLookupEnabled(work)
    ensures r.Some? ==> |r.value| >= |AuthorsPath| && r.value[..|AuthorsPath|] == AuthorsPath
    ensures r.Some? ==> IsPercentEncoded(r.value[|AuthorsPath|..]) && Decode(r.value[|AuthorsPath|..]) == AuthorKey(work)
  {
    if AuthorLookupEnabled(work) then Some(AuthorPath(AuthorKey(work).value)) else None
  }

  const AboutTheAuthor := "About the Author"
  const AuthorOnly := "Author"

  /** True when `!!formatAuthorBio(bio)`. */
  predicate HasBio(author: Option<Author>) {
    var b := FormatAuthorBio(AuthorBio(author));
    b.Some? && b.value != ""
  }

  /** The heading of the author section: "About the Author" when the loaded
      bio has something besides whitespace, otherwise "Author". */
  function AuthorHeading(author: Option<Author>): (h: string)
    ensures h == AboutTheAuthor <==> HasContent(AuthorBio(author))
    ensures h != AboutTheAuthor ==> h == AuthorOnly
  {
    FormatAgree(AuthorBio(author));
    if HasBio(author) then AboutTheAuthor else AuthorOnly
  }

  /** The author "Read more" button is rendered iff the heading reads "About
      the Author". */
  lemma ReadMoreFollowsHeading(author: Option<Author>)
    ensures HasBio(author) <==> AuthorHeading(author) == AboutTheAuthor
  {
    FormatAgree(AuthorBio(author));
  }

  /** A whitespace-only string bio formats to "" rather than `null`, and
      still counts as no bio. */
  lemma WhitespaceBioIsNoBio(n: Option<string>, s: string)
    requires s != "" && AllWhitespace(s)
    ensures FormatAuthorBio(Plain(s)) == Some("")
    ensures AuthorHeading(Some(Author(n, None, Plain(s), None))) == AuthorOnly
  {
    FormatAgree(Plain(s));
  }

  /** A click on the author "Read more" button; when the button is not
      rendered there is nothing to click and the flags stay as they are. */
  function ClickAuthorReadMore(e: Expansion, author: Option<Author>): (r: Expansion)
    ensures r.description == e.description
    ensures r.author != e.author <==> HasBio(author)
  {
    if HasBio(author) then ToggleAuthor(e) else e
  }
}

=== FILE: forms.dfy ===
/** The validation vocabulary the three forms share: a schema check yields a
    list of issues, each attached to a field path, and the form shows under
    each field the message of the first issue for that field. Lengths are
    JavaScript `.length`, i.e. UTF-16 code units. */
module Forms {

  import opened Wrappers
  import opened JsString

  datatype Issue = Issue(path: string, message: string)

  /** The message shown under field `path`: that of its first issue. */
  function FirstMessage(issues: seq<Issue>, path: string): (r: Option<string>)
    ensures r.None? <==> forall i :: 0 <= i < |issues| ==> issues[i].path != path
    ensures r.Some? ==> exists i :: 0 <= i < |issues| && issues[i] == Issue(path, r.value)
                                    && forall j :: 0 <= j < i ==> issues[j].path != path
    decreases |issues|
  {
    if |issues| == 0 then None
    else if issues[0].path == path then Some(issues[0].message)
    else
      var r := FirstMessage(issues[1..], path);
      assert forall j :: 1 <= j < |issues| ==> issues[j] == issues[1..][j - 1];
      if r.Some? then
        var k :| 0 <= k < |issues[1..]| && issues[1..][k] == Issue(path, r.value)
                 && forall j :: 0 <= j < k ==> issues[1..][j].path != path;
        assert issues[k + 1] == Issue(path, r.value);
        r
      else
        r
  }

  lemma {:induction false} FirstMessageAppend(a: seq<Issue>, b: seq<Issue>, path: string)
    ensures FirstMessage(a + b, path) == if FirstMessage(a, path).Some? then FirstMessage(a, path) else FirstMessage(b, path)
    decreases |a|
  {
    if |a| == 0 {
      assert a + b == b;
    } else {
      assert (a + b)[0] == a[0];
      assert (a + b)[1..] == a[1..] + b;
      FirstMessageAppend(a[1..], b, path);
    }
  }

  /** `z.string().min(n, message)` on one field. */
  function MinLength(path: string, value: string, n: nat, message: string): (issues: seq<Issue>)
    ensures issues == [] <==> JsLength(value) >= n
    ensures issues != [] ==> issues == [Issue(path, message)]
  {
    if JsLength(value) < n then [Issue(path, message)] else []
  }

  /** `z.string().max(n)` on one field, with the schema library's default
      message. */
  function MaxLength(path: string, value: string, n: nat): (issues: seq<Issue>)
    ensures issues == [] <==> JsLength(value) <= n
    ensures issues != [] ==> |issues| == 1 && issues[0].path == path
  {
    if JsLength(value) > n then [Issue(path, "String must contain at most " + IntToString(n) + " character(s)")] else []
  }

  /** A check that keeps its issue when `ok` is false. */
  function Check(ok: bool, path: string, message: string): (issues: seq<Issue>)
    ensures issues == [] <==> ok
    ensures issues != [] ==> issues == [Issue(path, message)]
  {
    if ok then [] else [Issue(path, message)]
  }

  /** `.min(1)` is exactly non-emptiness. */
  lemma MinOneIsNonEmpty(s: string)
    ensures JsLength(s) >= 1 <==> s != ""
  {
  }
}

=== FILE: friend_requests.dfy ===
/** The friend-requests modal: a map from request id to the decision taken
    in this modal, which grows by one entry per successful accept or decline;
    a request shows its action buttons only while it has no entry. */
module FriendRequests {

  import opened Wrappers
  import Api

  datatype Status = Accepted | Declined

  /** A pending request as listed by the backend. */
  datatype Request = Request(id: string, firstName: string, lastName: string, userId: string,
                             profileImage: Option<string>)

  datatype Action = Accept | Decline

  type StatusMap = map<string, Status>

  function StatusFor(a: Action): Status {
    match a
    case Accept => Accepted
    case Decline => Declined
  }

  /** The backend path an action posts to. */
  function ActionPath(id: string, a: Action): string {
    "/friends/requests/" + id + (if a == Accept then "/accept" else "/decline")
  }

  /** `acceptRequest` / `declineRequest` once the post has settled: a
      successful call records the decision for that id and touches no other
      entry; a failed call leaves the map as it was. */
  function Decide(m: StatusMap, id: string, a: Action, reply: Api.Reply): (r: StatusMap)
    ensures !Api.Succeeded(reply) ==> r == m
    ensures Api.Succeeded(reply) ==> r.Keys == m.Keys + {id} && r[id] == StatusFor(a)
    ensures forall k :: k in m && k != id ==> k in r && r[k] == m[k]
  {
    match Api.ApiPost(reply)
    case Ok(_) => m[id := StatusFor(a)]
    case Err(_) => m
  }

  // ---------------------------------------------------------------------------
  // Per-request display

  /** `requestStatus[requestId] === "accepted"`. */
  predicate ShowsAcceptedLabel(m: StatusMap, id: string) {
    id in m && m[id] == Accepted
  }

  /** `requestStatus[requestId] === "declined"`. */
  predicate ShowsDeclinedLabel(m: StatusMap, id: string) {
    id in m && m[id] == Declined
  }

  /** `!requestStatus[requestId]`: Accept and Decline buttons. */
  predicate ShowsButtons(m: StatusMap, id: string) {
    id !in m
  }

  /** The three conditions of a card are exclusive and exhaustive. */
  lemma ExactlyOneShown(m: StatusMap, id: string)
    ensures ShowsAcceptedLabel(m, id) || ShowsDeclinedLabel(m, id) || ShowsButtons(m, id)
    ensures !(ShowsAcceptedLabel(m, id) && ShowsDeclinedLabel(m, id))
    ensures !(ShowsAcceptedLabel(m, id) && ShowsButtons(m, id))
    ensures !(ShowsDeclinedLabel(m, id) && ShowsButtons(m, id))
  {
  }

  /** The list area: the "No friend requests" message for an empty list,
      otherwise one card per request. */
  datatype ListView = NoRequestsMessage | Cards(ids: seq<string>)

  function RenderList(requests: seq<Request>): (v: ListView)
    ensures v.NoRequestsMessage? <==> |requests| == 0
    ensures v.Cards? ==> |v.ids| == |requests| && forall i :: 0 <= i < |requests| ==> v.ids[i] == requests[i].id
  {
    if |requests| == 0 then NoRequestsMessage else Cards(seq(|requests|, i requires 0 <= i < |requests| => requests[i].id))
  }

  // ---------------------------------------------------------------------------
  // The modal as a state machine

  /** A post that has been sent and has not settled yet. */
  datatype PendingPost = PendingPost(id: string, action: Action)

  /** `visible` is the parent's `displayModal`; `status` is `requestStatus`;
      `pending` holds the posts still awaiting their reply. Nothing in the
      component tracks them: they are part of the model so that a reply can
      only settle a post that was sent. */
  datatype Modal = Modal(visible: bool, status: StatusMap, pending: multiset<PendingPost>)

  /** A freshly mounted modal: no request has a status and nothing is in
      flight. */
  function Mount(visible: bool): (st: Modal)
    ensures forall id :: ShowsButtons(st.status, id)
    ensures |st.pending| == 0
  {
    Modal(visible, map[], multiset{})
  }

  datatype Effect = Post(path: string) | Invalidate(queryKey: string)

  /** An event: a button click on a card, the reply to an earlier click's
      post arriving, the close button, or the parent showing the modal again
      (`setDisplayModal(true)`). The buttons stay on screen while a post is
      in flight, so clicks and replies interleave freely. */
  datatype Event = Click(id: string, action: Action) | Settle(id: string, action: Action, reply: Api.Reply) | Close | Open

  datatype Transition = Transition(modal: Modal, effects: seq<Effect>)

  predicate Listed(requests: seq<Request>, id: string) {
    exists i :: 0 <= i < |requests| && requests[i].id == id
  }

  /** The action buttons for `id` are on screen. */
  predicate Offered(st: Modal, requests: seq<Request>, id: string) {
    st.visible && Listed(requests, id) && ShowsButtons(st.status, id)
  }

  /** One event. A click only has an effect when its buttons are on screen,
      and then sends its post without touching the status. A reply to a post
      in flight applies `Decide`, whether or not the modal is still open or
      the request still undecided. Closing an open modal hides it, keeps the
      decisions and refreshes the `friendRequests` query (a hidden modal has
      no close button); opening shows it again with nothing else changed. */
  function Step(st: Modal, requests: seq<Request>, ev: Event): (t: Transition)
    ensures ev.Close? && st.visible ==> t == Transition(st.(visible := false), [Invalidate("friendRequests")])
    ensures ev.Open? ==> t == Transition(st.(visible := true), [])
    ensures !ev.Close? && !ev.Open? ==> t.modal.visible == st.visible
    ensures ev.Click? ==> t.modal.status == st.status
    ensures ev.Click? && Offered(st, requests, ev.id) ==>
              t.effects == [Post(ActionPath(ev.id, ev.action))]
              && t.modal.pending == st.pending + multiset{PendingPost(ev.id, ev.action)}
    ensures ev.Settle? ==> t.effects == []
    ensures ev.Settle? && PendingPost(ev.id, ev.action) in st.pending ==>
              t.modal.status == Decide(st.status, ev.id, ev.action, ev.reply)
              && t.modal.pending == st.pending - multiset{PendingPost(ev.id, ev.action)}
    ensures (ev.Click? && !Offered(st, requests, ev.id)) || (ev.Settle? && PendingPost(ev.id, ev.action) !in st.pending)
            || (ev.Close? && !st.visible)
            ==> t == Transition(st, [])
  {
    match ev
    case Close =>
      if st.visible then Transition(st.(visible := false), [Invalidate("friendRequests")]) else Transition(st, [])
    case Open => Transition(st.(visible := true), [])
    case Click(id, action) =>
      if Offered(st, requests, id) then
        Transition(st.(pending := st.pending + multiset{PendingPost(id, action)}), [Post(ActionPath(id, action))])
      else
        Transition(st, [])
    case Settle(id, action, reply) =>
      var p := PendingPost(id, action);
      if p in st.pending then
        Transition(st.(status := Decide(st.status, id, action, reply), pending := st.pending - multiset{p}), [])
      else
        Transition(st, [])
  }

  /** The modal after a sequence of events. */
  function Run(st: Modal, requests: seq<Request>, events: seq<Event>): Modal
    decreases |events|
  {
    if |events| == 0 then st else Run(Step(st, requests, events[0]).modal, requests, events[1..])
  }

  /** No post for `id` is in flight. */
  predicate Quiet(st: Modal, id: string) {
    forall p :: p in st.pending ==> p.id != id
  }

  /** Once a request is decided and none of its posts is still in flight,
      its entry survives every later event unchanged: its buttons are gone,
      so no new post for it can be sent. */
  lemma {:induction false} DecisionsAreFinal(st: Modal, requests: seq<Request>, events: seq<Event>, id: string)
    requires id in st.status && Quiet(st, id)
    ensures id in Run(st, requests, events).status
    ensures Run(st, requests, events).status[id] == st.status[id]
    ensures Quiet(Run(st, requests, events), id)
    decreases |events|
  {
    if |events| > 0 {
      var next := Step(st, requests, events[0]).modal;
      assert id in next.status && next.status[id] == st.status[id];
      assert Quiet(next, id) by {
        forall p | p in next.pending
          ensures p.id != id
        {
          assert p in st.pending || (events[0].Click? && Offered(st, requests, events[0].id) && p.id == events[0].id);
        }
      }
      DecisionsAreFinal(next, requests, events[1..], id);
    }
  }

  /** The buttons stay up while a post is in flight, so a second click on
      the same card sends a second post. */
  lemma DoubleClickPostsTwice(st: Modal, requests: seq<Request>, id: string, a: Action)
    requires Offered(st, requests, id)
    ensures var first := Step(st, requests, Click(id, a));
            var second := Step(first.modal, requests, Click(id, a));
            && first.effects == [Post(ActionPath(id, a))]
            && second.effects == [Post(ActionPath(id, a))]
            && second.modal.pending[PendingPost(id, a)] == st.pending[PendingPost(id, a)] + 2
  {
    var first := Step(st, requests, Click(id, a));
    assert Offered(first.modal, requests, id);
  }

  /** Accept and then Decline before either reply arrives, both posts
      succeeding with the accept settling first: the card shows "Request
      Accepted" and is then overwritten with "Request Declined". */
  lemma LateSettlementOverwrites(st: Modal, requests: seq<Request>, id: string, acceptReply: Api.Reply, declineReply: Api.Reply)
    requires Offered(st, requests, id)
    requires Api.Succeeded(acceptReply) && Api.Succeeded(declineReply)
    ensures var s1 := Step(st, requests, Click(id, Accept)).modal;
            var s2 := Step(s1, requests, Click(id, Decline));
            var s3 := Step(s2.modal, requests, Settle(id, Accept, acceptReply)).modal;
            var s4 := Step(s3, requests, Settle(id, Decline, declineReply)).modal;
            && s2.effects == [Post(ActionPath(id, Decline))]
            && ShowsAcceptedLabel(s3.status, id)
            && ShowsDeclinedLabel(s4.status, id)
  {
    var s1 := Step(st, requests, Click(id, Accept)).modal;
    assert Offered(s1, requests, id);
    var s2 := Step(s1, requests, Click(id, Decline)).modal;
    assert PendingPost(id, Accept) in s2.pending;
    var s3 := Step(s2, requests, Settle(id, Accept, acceptReply)).modal;
    assert PendingPost(id, Decline) in s3.pending;
  }

  /** Every post in flight is for a listed request. */
  predicate PendingListed(st: Modal, requests: seq<Request>) {
    forall p :: p in st.pending ==> Listed(requests, p.id)
  }

  /** Only listed requests ever acquire a status. */
  lemma {:induction false} OnlyListedRequestsDecided(st: Modal, requests: seq<Request>, events: seq<Event>)
    requires PendingListed(st, requests)
    ensures forall id :: id in Run(st, requests, events).status ==> id in st.status || Listed(requests, id)
    decreases |events|
  {
    if |events| > 0 {
      var next := Step(st, requests, events[0]).modal;
      assert PendingListed(next, requests) by {
        forall p | p in next.pending
          ensures Listed(requests, p.id)
        {
          assert p in st.pending || (events[0].Click? && Offered(st, requests, events[0].id) && p.id == events[0].id);
        }
      }
      OnlyListedRequestsDecided(next, requests, events[1..]);
    }
  }

  /** From a fresh modal, every status was recorded by a successful post
      for a listed request. */
  lemma FreshModalDecidesOnlyListed(visible: bool, requests: seq<Request>, events: seq<Event>)
    ensures forall id :: id in Run(Mount(visible), requests, events).status ==> Listed(requests, id)
  {
    OnlyListedRequestsDecided(Mount(visible), requests, events);
  }

  /** The component stays mounted while hidden, so closing and reopening
      the modal keeps every decision and every post in flight; the list is
      refreshed only when the close button was on screen. */
  lemma ReopenKeepsState(st: Modal, requests: seq<Request>)
    ensures var closed := Step(st, requests, Close);
            var reopened := Step(closed.modal, requests, Open);
            && reopened.modal.visible
            && reopened.modal.status == st.status
            && reopened.modal.pending == st.pending
            && (st.visible ==> closed.effects + reopened.effects == [Invalidate("friendRequests")])
            && (!st.visible ==> closed.effects + reopened.effects == [])
  {
  }

  /** A closed modal ignores clicks. */
  lemma {:induction false} ClosedModalIgnoresClicks(st: Modal, requests: seq<Request>, events: seq<Event>)
    requires !st.visible
    requires forall i :: 0 <= i < |events| ==> events[i].Click?
    ensures Run(st, requests, events) == st
    decreases |events|
  {
    if |events| > 0 {
      ClosedModalIgnoresClicks(st, requests, events[1..]);
    }
  }
}

=== FILE: js_string.dfy ===
/** The fragments of JavaScript's string and number semantics the application
    relies on: `String.prototype.trim`, `.length` (UTF-16 code units), truthiness
    of strings, and the decimal rendering of an integer in a template literal.

    Strings are Dafny strings, whose characters are Unicode scalar values: a
    JavaScript string is modelled only when it is well formed (no lone
    surrogate), and `.length` counts a character outside the Basic Multilingual
    Plane as two code units, as JavaScript does. */
module JsString {

  import opened Wrappers

  /** WhiteSpace and LineTerminator code points of ECMA-262 (sections 12.2 and
      12.3): tab, vertical tab, form feed, space, no-break space, byte order
      mark, the space separators of Unicode category Zs, line feed, carriage
      return, line separator and paragraph separator. */
  predicate IsWhitespace(c: char) {
    || c == '\t' || c == '\U{0B}' || c == '\U{0C}' || c == ' ' || c == '\U{A0}' || c == '\U{FEFF}'
    || c == '\U{1680}' || '\U{2000}' <= c <= '\U{200A}' || c == '\U{202F}' || c == '\U{205F}' || c == '\U{3000}'
    || c == '\n' || c == '\r' || c == '\U{2028}' || c == '\U{2029}'
  }

  /** No whitespace at either end: what `trim()` returns. */
  predicate IsTrimmed(s: string) {
    |s| == 0 || (!IsWhitespace(s[0]) && !IsWhitespace(s[|s| - 1]))
  }

  predicate AllWhitespace(s: string) {
    forall k :: 0 <= k < |s| ==> IsWhitespace(s[k])
  }

  /** `trimStart()`: drops the longest all-whitespace prefix. */
  function TrimStart(s: string): (r: string)
    ensures |r| <= |s| && r == s[|s| - |r|..]
    ensures AllWhitespace(s[..|s| - |r|])
    ensures |r| > 0 ==> !IsWhitespace(r[0])
    decreases |s|
  {
    if |s| > 0 && IsWhitespace(s[0]) then TrimStart(s[1..]) else s
  }

  /** `trimEnd()`: drops the longest all-whitespace suffix. */
  function TrimEnd(s: string): (r: string)
    ensures |r| <= |s| && r == s[..|r|]
    ensures AllWhitespace(s[|r|..])
    ensures |r| > 0 ==> !IsWhitespace(r[|r| - 1])
    decreases |s|
  {
    if |s| > 0 && IsWhitespace(s[|s| - 1]) then TrimEnd(s[..|s| - 1]) else s
  }

  /** `trim()`: the result has no whitespace at either end, a string that is
      already trimmed comes back unchanged, and only an all-whitespace string
      trims to the empty string. */
  function Trim(s: string): (r: string)
    ensures IsTrimmed(r)
    ensures IsTrimmed(s) ==> r == s
    ensures r == [] <==> AllWhitespace(s)
  {
    var t := TrimStart(s);
    var r := TrimEnd(t);
    assert |r| > 0 ==> r[0] == t[0];
    TrimOfTrimmed(s);
    TrimEmptyIff(s);
    r
  }

  /** `r` sits at offset `i` of `s` with only whitespace around it. */
  predicate IsWhitespaceFramed(s: string, i: int, r: string) {
    0 <= i <= |s| - |r| && r == s[i..i + |r|] && AllWhitespace(s[..i]) && AllWhitespace(s[i + |r|..])
  }

  /** What `trim()` removes is whitespace, and what it keeps is one contiguous
      piece of the input. */
  lemma TrimCutsOnlyWhitespace(s: string)
    ensures exists i :: IsWhitespaceFramed(s, i, Trim(s))
  {
    TrimInfix(s);
    assert IsWhitespaceFramed(s, |s| - |TrimStart(s)|, Trim(s));
  }

  lemma TrimInfix(s: string)
    ensures IsWhitespaceFramed(s, |s| - |TrimStart(s)|, TrimEnd(TrimStart(s)))
  {
    var t := TrimStart(s);
    Framed(s, |s| - |t|, t, TrimEnd(t));
  }

  /** A piece `r` cut from the front of `t = s[i..]` with whitespace after it,
      where `s[..i]` is whitespace, is framed by whitespace in `s`. */
  lemma Framed(s: string, i: int, t: string, r: string)
    requires 0 <= i <= |s| && t == s[i..]
    requires |r| <= |t| && r == t[..|r|]
    requires AllWhitespace(s[..i]) && AllWhitespace(t[|r|..])
    ensures IsWhitespaceFramed(s, i, r)
  {
    assert s[i + |r|..] == t[|r|..];
  }

  lemma TrimOfTrimmed(s: string)
    ensures IsTrimmed(s) ==> TrimEnd(TrimStart(s)) == s
  {
    if IsTrimmed(s) && |s| > 0 {
      assert |TrimStart(s)| == |s|;
    }
  }

  lemma TrimEmptyIff(s: string)
    ensures TrimEnd(TrimStart(s)) == [] <==> AllWhitespace(s)
  {
    if AllWhitespace(s) {
      WhitespaceTrimsToEmpty(s);
    }
    var t := TrimStart(s);
    if TrimEnd(t) == [] {
      TrimEndEmpty(t);
      WhitespaceBeforeTrimmed(s, t);
    }
  }

  lemma WhitespaceTrimsToEmpty(s: string)
    requires AllWhitespace(s)
    ensures TrimStart(s) == []
  {
    var t := TrimStart(s);
    if |t| > 0 {
      assert false;
    }
  }

  lemma TrimEndEmpty(t: string)
    requires TrimEnd(t) == []
    ensures AllWhitespace(t)
  {
    assert t[0..] == t;
  }

  /** What `trimStart()` removes is whitespace, so an all-whitespace
      remainder means an all-whitespace string. */
  lemma WhitespaceBeforeTrimmed(s: string, t: string)
    requires t == TrimStart(s) && AllWhitespace(t)
    ensures AllWhitespace(s)
  {
    var i := |s| - |t|;
    assert s == s[..i] + t;
    AllWhitespaceAppend(s[..i], t);
  }

  lemma AllWhitespaceAppend(a: string, b: string)
    requires AllWhitespace(a) && AllWhitespace(b)
    ensures AllWhitespace(a + b)
  {
    forall k | 0 <= k < |a + b|
      ensures IsWhitespace((a + b)[k])
    {
      if k < |a| {
        assert (a + b)[k] == a[k];
      } else {
        assert (a + b)[k] == b[k - |a|];
      }
    }
  }

  lemma TrimIdempotent(s: string)
    ensures Trim(Trim(s)) == Trim(s)
  {
  }

  /** Number of UTF-16 code units that encode `c`. */
  function Utf16Units(c: char): nat {
    if c as int >= 0x1_0000 then 2 else 1
  }

  /** `s.length` in JavaScript: UTF-16 code units, at least one and at most two
      per character, exactly one per character of the Basic Multilingual Plane. */
  function JsLength(s: string): (n: nat)
    ensures |s| <= n <= 2 * |s|
    ensures (forall k :: 0 <= k < |s| ==> s[k] as int < 0x1_0000) ==> n == |s|
    ensures |s| == 1 ==> n == Utf16Units(s[0])
    decreases |s|
  {
    if |s| == 0 then 0 else Utf16Units(s[0]) + JsLength(s[1..])
  }

  lemma {:induction false} JsLengthAppend(a: string, b: string)
    ensures JsLength(a + b) == JsLength(a) + JsLength(b)
    decreases |a|
  {
    if |a| > 0 {
      assert (a + b)[1..] == a[1..] + b;
      JsLengthAppend(a[1..], b);
    } else {
      assert a + b == b;
    }
  }

  /** A JavaScript string is truthy iff it is not empty. */
  predicate Truthy(s: string) {
    |s| > 0
  }

  // ---------------------------------------------------------------------------
  // Integers in template literals

  function DigitChar(d: nat): (c: char)
    requires d < 10
    ensures '0' <= c <= '9'
  {
    ('0' as int + d) as char
  }

  predicate IsDigit(c: char) {
    '0' <= c <= '9'
  }

  function DigitValue(c: char): (d: nat)
    requires IsDigit(c)
    ensures d < 10 && DigitChar(d) == c
  {
    c as int - '0' as int
  }

  /** Decimal digits of `n`, most significant first. */
  function NatToDigits(n: nat): (s: string)
    ensures |s| > 0
    ensures forall k :: 0 <= k < |s| ==> IsDigit(s[k])
    ensures s[0] == '0' ==> n == 0
    decreases n
  {
    if n < 10 then [DigitChar(n)] else NatToDigits(n / 10) + [DigitChar(n % 10)]
  }

  /** The value of a string of decimal digits. */
  function ParseDigits(s: string): nat
    requires forall k :: 0 <= k < |s| ==> IsDigit(s[k])
    decreases |s|
  {
    if |s| == 0 then 0 else ParseDigits(s[..|s| - 1]) * 10 + DigitValue(s[|s| - 1])
  }

  lemma {:induction false} DigitsRoundTrip(n: nat)
    ensures ParseDigits(NatToDigits(n)) == n
    decreases n
  {
    if n >= 10 {
      var d := NatToDigits(n / 10);
      var s := d + [DigitChar(n % 10)];
      assert s[..|s| - 1] == d;
      DigitsRoundTrip(n / 10);
    }
  }

  /** `${n}` for an integer `n` (below 10^21 in magnitude, where JavaScript
      still prints plain decimal): an optional minus sign, then the digits. */
  function IntToString(n: int): (s: string)
    ensures |s| > 0
  {
    if n < 0 then "-" + NatToDigits(-n) else NatToDigits(n)
  }

  /** Digits as `NatToDigits` prints them: at least one, and no leading zero
      unless the whole number is `0`. */
  predicate IsCanonicalDigits(s: string) {
    |s| > 0 && (forall k :: 0 <= k < |s| ==> IsDigit(s[k])) && (s[0] != '0' || |s| == 1)
  }

  /** Reads back what `IntToString` printed; `None` for anything else,
      including leading zeros and `-0`. */
  function ParseInt(s: string): (r: Option<int>)
  {
    if |s| > 1 && s[0] == '-' && s[1] != '0' && IsCanonicalDigits(s[1..]) then
      var v: int := ParseDigits(s[1..]);
      Some(-v)
    else if IsCanonicalDigits(s) then
      Some(ParseDigits(s))
    else
      None
  }

  lemma NatToDigitsCanonical(n: nat)
    ensures IsCanonicalDigits(NatToDigits(n))
  {
    if n == 0 {
      assert NatToDigits(n) == ['0'];
    }
  }

  /** Printing an integer loses nothing: parsing the text gives it back. */
  lemma IntToStringRoundTrip(n: int)
    ensures ParseInt(IntToString(n)) == Some(n)
  {
    var s := IntToString(n);
    if n < 0 {
      var d := NatToDigits(-n);
      assert s[1..] == d;
      NatToDigitsCanonical(-n);
      DigitsRoundTrip(-n);
    } else {
      NatToDigitsCanonical(n);
      DigitsRoundTrip(n);
    }
  }

  /** Canonical digits are exactly what `NatToDigits` prints for their value. */
  lemma {:induction false} DigitsOfParse(s: string)
    requires IsCanonicalDigits(s)
    ensures NatToDigits(ParseDigits(s)) == s
    decreases |s|
  {
    var d := DigitValue(s[|s| - 1]);
    if |s| > 1 {
      var front := s[..|s| - 1];
      assert IsCanonicalDigits(front) by {
        assert front[0] == s[0];
        assert forall k :: 0 <= k < |front| ==> front[k] == s[k];
      }
      DigitsOfParse(front);
      var m := ParseDigits(front);
      if m == 0 {
        assert false;
      }
      var n := m * 10 + d;
      assert n / 10 == m && n % 10 == d;
      assert s == front + [s[|s| - 1]];
    }
  }

  /** Parsing accepts only the text `IntToString` prints: a parsed integer
      prints back as exactly the text it came from. */
  lemma ParsedTextIsCanonical(s: string)
    ensures ParseInt(s).Some? ==> IntToString(ParseInt(s).value) == s
  {
    if |s| > 1 && s[0] == '-' && s[1] != '0' && IsCanonicalDigits(s[1..]) {
      DigitsOfParse(s[1..]);
      var v := ParseDigits(s[1..]);
      if v == 0 {
        assert false;
      }
      assert s == "-" + s[1..];
    } else if IsCanonicalDigits(s) {
      DigitsOfParse(s);
    }
  }

  lemma IntToStringInjective(m: int, n: int)
    ensures IntToString(m) == IntToString(n) <==> m == n
  {
    if IntToString(m) == IntToString(n) {
      IntToStringRoundTrip(m);
      IntToStringRoundTrip(n);
    }
  }
}

=== FILE: navbar.dfy ===
/** The search bar: `formatSearchQuery`, the three-character guard in
    `searchBooks`, what a completed search leaves in the component state, and
    the link and thumbnail of each result. */
module Navbar {

  import opened Wrappers
  import opened JsString
  import opened UriComponent
  import OpenLibrary

  // ---------------------------------------------------------------------------
  // Query formatting

  predicate IsBracket(c: char) {
    c == '[' || c == ']'
  }

  /** `q.replace(/[\[\]]/g, "")`: every other character is kept, as often as
      it occurs in `q`. */
  function StripBrackets(q: string): (r: string)
    ensures forall k :: 0 <= k < |r| ==> !IsBracket(r[k])
    ensures forall c :: !IsBracket(c) ==> multiset(r)[c] == multiset(q)[c]
    ensures (forall k :: 0 <= k < |q| ==> !IsBracket(q[k])) ==> r == q
    decreases |q|
  {
    if |q| == 0 then ""
    else
      assert q == [q[0]] + q[1..];
      if IsBracket(q[0]) then StripBrackets(q[1..]) else [q[0]] + StripBrackets(q[1..])
  }

  /** The replacement works character by character and keeps the order of
      what it keeps: it distributes over concatenation, and a single
      character is dropped exactly when it is a bracket. Together these
      determine the result on every string. */
  lemma StripBracketsPerCharacter(a: string, b: string, c: char)
    ensures StripBrackets(a + b) == StripBrackets(a) + StripBrackets(b)
    ensures StripBrackets([c]) == if IsBracket(c) then "" else [c]
  {
    StripBracketsAppend(a, b);
    assert [c][1..] == "";
  }

  /** Stripping the first character off. */
  function KeptHead(c: char): string {
    if IsBracket(c) then "" else [c]
  }

  lemma StripBracketsHead(q: string)
    requires |q| > 0
    ensures StripBrackets(q) == KeptHead(q[0]) + StripBrackets(q[1..])
  {
  }

  lemma {:induction false} StripBracketsAppend(a: string, b: string)
    ensures StripBrackets(a + b) == StripBrackets(a) + StripBrackets(b)
    decreases |a|
  {
    if |a| == 0 {
      assert a + b == b;
    } else {
      var t := a + b;
      assert t[0] == a[0] && t[1..] == a[1..] + b;
      StripBracketsAppend(a[1..], b);
      StripBracketsHead(t);
      StripBracketsHead(a);
      Regroup(KeptHead(a[0]), StripBrackets(a[1..]), StripBrackets(b),
              StripBrackets(a) + StripBrackets(b), StripBrackets(t));
    }
  }

  /** Concatenation regrouped: `(h + x) + y` and `h + (x + y)`. */
  lemma Regroup(h: string, x: string, y: string, left: string, right: string)
    requires left == (h + x) + y && right == h + (x + y)
    ensures left == right
  {
  }

  /** `t.replace(<pat>, rep)` with a global pattern matching the literal
      `pat`: matches are replaced left to right and never overlap. */
  function ReplaceAll(t: string, pat: string, rep: string): string
    requires |pat| > 0
    decreases |t|
  {
    if |t| < |pat| then t
    else if t[..|pat|] == pat then rep + ReplaceAll(t[|pat|..], pat, rep)
    else [t[0]] + ReplaceAll(t[1..], pat, rep)
  }

  /** `formatSearchQuery`: strip brackets, trim, percent-encode, then turn
      every `%20` into `+`. The result is the form encoding of the stripped,
      trimmed query, and decoding it (`+` to space, then percent-decoding)
      gives that query back. It is a well-formed form-encoded string: only
      unreserved characters, the marks `!~*'()`, `%XX` escapes and `+`; no
      `%20`; and no `+` at either end. */
  function FormatSearchQuery(q: string): (r: string)
    ensures r == FormEncode(Trim(StripBrackets(q)))
    ensures FormDecode(r) == Some(Trim(StripBrackets(q)))
    ensures IsFormEncoded(r)
    ensures !ContainsPercent20(r)
    ensures |r| > 0 ==> r[0] != '+' && r[|r| - 1] != '+'
    ensures forall k :: 0 <= k < |r| ==> IsUnescaped(r[k]) || r[k] == '%' || r[k] == '+'
  {
    var s := Trim(StripBrackets(q));
    ReplaceAllEncode(s);
    FormEncodedOfFormEncode(s);
    FormEncodedHasNoPercent20(FormEncode(s));
    FormEncodedCharacters(FormEncode(s));
    FormEncodeEnds(s);
    FormDecodeFormEncode(s);
    ReplaceAll(Encode(s), "%20", "+")
  }

  // ---------------------------------------------------------------------------
  // Reference: form encoding, where a space is written `+`

  function FormEncodeChar(c: char): string {
    if c == ' ' then "+" else EncodeChar(c)
  }

  function FormEncode(s: string): string
    decreases |s|
  {
    if |s| == 0 then "" else FormEncodeChar(s[0]) + FormEncode(s[1..])
  }

  /** `t.replace(/\+/g, " ")`. */
  function PlusToSpace(t: string): (r: string)
    ensures |r| == |t|
    ensures forall k :: 0 <= k < |t| ==> r[k] == (if t[k] == '+' then ' ' else t[k])
    decreases |t|
  {
    if |t| == 0 then "" else [if t[0] == '+' then ' ' else t[0]] + PlusToSpace(t[1..])
  }

  /** How the catalogue reads a query parameter: `+` is a space, then percent
      escapes are decoded. */
  function FormDecode(t: string): Option<string> {
    Decode(PlusToSpace(t))
  }

  /** The shape of a form-encoded string: unreserved characters, marks and
      `+` stand for themselves; `%` starts an escape of two upper-case hex
      digits, and the escape of a space (`%20`) never occurs. */
  predicate IsFormEncoded(t: string)
    decreases |t|
  {
    if |t| == 0 then true
    else if t[0] == '%' then
      && |t| >= 3 && IsUpperHex(t[1]) && IsUpperHex(t[2]) && !(t[1] == '2' && t[2] == '0')
      && IsFormEncoded(t[3..])
    else
      (IsUnescaped(t[0]) || t[0] == '+') && IsFormEncoded(t[1..])
  }

  /** `%20` starts at index `i` of `t`. */
  predicate Percent20At(t: string, i: int) {
    0 <= i && i + 3 <= |t| && t[i] == '%' && t[i + 1] == '2' && t[i + 2] == '0'
  }

  predicate ContainsPercent20(t: string) {
    exists i | 0 <= i < |t| :: Percent20At(t, i)
  }

  // ---------------------------------------------------------------------------
  // `formatSearchQuery` is form encoding of the stripped, trimmed query

  lemma ReplaceAllKeepsHead(c: char, r: string)
    requires c != '%'
    ensures ReplaceAll([c] + r, "%20", "+") == [c] + ReplaceAll(r, "%20", "+")
  {
    var t := [c] + r;
    assert t[1..] == r;
    if |t| >= 3 {
      assert t[..3][0] == c;
    }
  }

  lemma ReplaceAllKeepsEscape(b: Byte, r: string)
    requires b != 0x20
    ensures ReplaceAll(PercentByte(b) + r, "%20", "+") == PercentByte(b) + ReplaceAll(r, "%20", "+")
  {
    var e := PercentByte(b);
    var t := e + r;
    EscapeIsNotSpace(b);
    assert t[..3] == e;
    assert t[1..] == [e[1]] + ([e[2]] + r);
    assert ReplaceAll(t, "%20", "+") == [e[0]] + ReplaceAll(t[1..], "%20", "+");
    ReplaceAllKeepsHead(e[1], [e[2]] + r);
    ReplaceAllKeepsHead(e[2], r);
    assert e == [e[0]] + [e[1]] + [e[2]];
  }

  /** Only the byte 0x20 is escaped as `%20`. */
  lemma EscapeIsNotSpace(b: Byte)
    requires b != 0x20
    ensures PercentByte(b) != "%20"
  {
    var e := PercentByte(b);
    HexRoundTrip(b / 16);
    HexRoundTrip(b % 16);
    assert HexValue(e[1]) == Some(b / 16) && HexValue(e[2]) == Some(b % 16);
    assert HexValue('2') == Some(2) && HexValue('0') == Some(0);
  }

  lemma {:induction false} ReplaceAllKeepsEscapes(bs: seq<Byte>, r: string)
    requires forall k :: 0 <= k < |bs| ==> bs[k] != 0x20
    ensures ReplaceAll(PercentBytes(bs) + r, "%20", "+") == PercentBytes(bs) + ReplaceAll(r, "%20", "+")
    decreases |bs|
  {
    if |bs| == 0 {
      assert PercentBytes(bs) + r == r;
    } else {
      var e := PercentByte(bs[0]);
      var p := PercentBytes(bs[1..]);
      assert PercentBytes(bs) == e + p;
      ReplaceAllKeepsEscape(bs[0], p + r);
      ReplaceAllKeepsEscapes(bs[1..], r);
      Regroup(e, p, r, PercentBytes(bs) + r, e + (p + r));
      Regroup(e, p, ReplaceAll(r, "%20", "+"), PercentBytes(bs) + ReplaceAll(r, "%20", "+"),
              e + (p + ReplaceAll(r, "%20", "+")));
    }
  }

  lemma ReplaceAllEncodeChar(c: char, r: string)
    ensures ReplaceAll(EncodeChar(c) + r, "%20", "+") == FormEncodeChar(c) + ReplaceAll(r, "%20", "+")
  {
    if IsUnescaped(c) {
      ReplaceAllKeepsHead(c, r);
    } else if c == ' ' {
      assert (EncodeChar(c) + r)[..3] == "%20";
      assert (EncodeChar(c) + r)[3..] == r;
    } else {
      ReplaceAllKeepsEscapes(Utf8(c), r);
    }
  }

  /** Replacing `%20` after encoding is the same as encoding a space as `+`. */
  lemma {:induction false} ReplaceAllEncode(s: string)
    ensures ReplaceAll(Encode(s), "%20", "+") == FormEncode(s)
    decreases |s|
  {
    if |s| > 0 {
      ReplaceAllEncodeChar(s[0], Encode(s[1..]));
      ReplaceAllEncode(s[1..]);
    }
  }

  // ---------------------------------------------------------------------------
  // Shape of the output

  lemma {:induction false} IsFormEncodedAppend(a: string, b: string)
    requires IsFormEncoded(a) && IsFormEncoded(b)
    ensures IsFormEncoded(a + b)
    decreases |a|
  {
    if |a| == 0 {
      assert a + b == b;
    } else if a[0] == '%' {
      assert |a| >= 3 && IsFormEncoded(a[3..]);
      assert (a + b)[..3] == a[..3];
      assert (a + b)[3..] == a[3..] + b;
      IsFormEncodedAppend(a[3..], b);
    } else {
      assert IsFormEncoded(a[1..]);
      assert (a + b)[0] == a[0];
      assert (a + b)[1..] == a[1..] + b;
      IsFormEncodedAppend(a[1..], b);
    }
  }

  lemma {:induction false} IsFormEncodedEscapes(bs: seq<Byte>)
    requires forall k :: 0 <= k < |bs| ==> bs[k] != 0x20
    ensures IsFormEncoded(PercentBytes(bs))
    decreases |bs|
  {
    if |bs| > 0 {
      var e := PercentByte(bs[0]);
      assert e[1] != '2' || e[2] != '0';
      assert e[3..] == "";
      IsFormEncodedEscapes(bs[1..]);
      IsFormEncodedAppend(e, PercentBytes(bs[1..]));
    }
  }

  lemma {:induction false} FormEncodedOfFormEncode(s: string)
    ensures IsFormEncoded(FormEncode(s))
    decreases |s|
  {
    if |s| > 0 {
      var c := s[0];
      if c == ' ' || IsUnescaped(c) {
        assert FormEncodeChar(c)[1..] == "";
      } else {
        IsFormEncodedEscapes(Utf8(c));
      }
      FormEncodedOfFormEncode(s[1..]);
      IsFormEncodedAppend(FormEncodeChar(c), FormEncode(s[1..]));
    }
  }

  lemma {:induction false} FormEncodedHasNoPercent20(t: string)
    requires IsFormEncoded(t)
    ensures !ContainsPercent20(t)
    decreases |t|
  {
    if |t| > 0 {
      var skip := if t[0] == '%' then 3 else 1;
      FormEncodedHasNoPercent20(t[skip..]);
      forall i | 0 <= i < |t|
        ensures !Percent20At(t, i)
      {
        if i >= skip && Percent20At(t, i) {
          assert Percent20At(t[skip..], i - skip);
        }
      }
    }
  }

  /** Every character of a form-encoded string is unreserved, a mark, `%`,
      an upper-case hex digit of an escape, or `+`. */
  lemma {:induction false} FormEncodedCharacters(t: string)
    requires IsFormEncoded(t)
    ensures forall k :: 0 <= k < |t| ==> IsUnescaped(t[k]) || t[k] == '%' || t[k] == '+'
    decreases |t|
  {
    if |t| > 0 {
      var skip := if t[0] == '%' then 3 else 1;
      FormEncodedCharacters(t[skip..]);
      forall k | skip <= k < |t|
        ensures IsUnescaped(t[k]) || t[k] == '%' || t[k] == '+'
      {
        assert t[k] == t[skip..][k - skip];
      }
    }
  }

  lemma {:induction false} FormEncodeAppend(a: string, b: string)
    ensures FormEncode(a + b) == FormEncode(a) + FormEncode(b)
    decreases |a|
  {
    if |a| == 0 {
      assert a + b == b;
    } else {
      assert (a + b)[0] == a[0];
      assert (a + b)[1..] == a[1..] + b;
      FormEncodeAppend(a[1..], b);
    }
  }

  lemma {:induction false} EscapesHaveNoPlus(bs: seq<Byte>)
    ensures forall k :: 0 <= k < |PercentBytes(bs)| ==> PercentBytes(bs)[k] != '+'
    decreases |bs|
  {
    if |bs| > 0 {
      EscapesHaveNoPlus(bs[1..]);
      var e := PercentByte(bs[0]);
      var t := PercentBytes(bs);
      forall k | 0 <= k < |t|
        ensures t[k] != '+'
      {
        if k >= 3 {
          assert t[k] == PercentBytes(bs[1..])[k - 3];
        } else {
          assert t[k] == e[k];
        }
      }
    }
  }

  /** Only a space encodes to something containing `+`. */
  lemma EncodeCharHasNoPlus(c: char)
    ensures forall k :: 0 <= k < |EncodeChar(c)| ==> EncodeChar(c)[k] != '+'
  {
    if !IsUnescaped(c) {
      EscapesHaveNoPlus(Utf8(c));
    }
  }

  /** Because trimming comes first, the encoding starts and ends with
      something other than `+`. */
  lemma FormEncodeEnds(s: string)
    requires IsTrimmed(s)
    ensures var t := FormEncode(s); |t| > 0 ==> t[0] != '+' && t[|t| - 1] != '+'
  {
    var t := FormEncode(s);
    if |s| > 0 {
      var n := |s|;
      EncodeCharHasNoPlus(s[0]);
      assert t[0] == FormEncodeChar(s[0])[0];
      EncodeCharHasNoPlus(s[n - 1]);
      assert s == s[..n - 1] + [s[n - 1]];
      FormEncodeAppend(s[..n - 1], [s[n - 1]]);
      assert FormEncode([s[n - 1]]) == FormEncodeChar(s[n - 1]);
      var last := FormEncodeChar(s[n - 1]);
      assert t[|t| - 1] == last[|last| - 1];
    }
  }

  // ---------------------------------------------------------------------------
  // Round trip

  lemma {:induction false} PlusToSpaceAppend(a: string, b: string)
    ensures PlusToSpace(a + b) == PlusToSpace(a) + PlusToSpace(b)
  {
  }

  lemma {:induction false} FormDecodeFormEncode(s: string)
    ensures Decode(PlusToSpace(FormEncode(s))) == Some(s)
    decreases |s|
  {
    if |s| > 0 {
      var c := s[0];
      var u := PlusToSpace(FormEncode(s[1..]));
      PlusToSpaceAppend(FormEncodeChar(c), FormEncode(s[1..]));
      if c == ' ' {
        assert PlusToSpace(FormEncode(s)) == " " + u;
        assert (" " + u)[1..] == u;
      } else {
        EncodeCharHasNoPlus(c);
        assert PlusToSpace(EncodeChar(c)) == EncodeChar(c);
        DecodeStepOfEncodeChar(c, u);
        assert (EncodeChar(c) + u)[|EncodeChar(c)|..] == u;
      }
      FormDecodeFormEncode(s[1..]);
      assert [c] + s[1..] == s;
    }
  }

  // ---------------------------------------------------------------------------
  // `searchBooks`

  /** One search hit: `key` is a work path such as `/works/OL1W`. */
  datatype Doc = Doc(key: string, title: string, authorNames: Option<seq<string>>, coverId: Option<int>)

  /** What the search request produced: a rejected fetch, a body that is not
      JSON or is `null`, or a parsed body whose `docs` may be missing. */
  datatype SearchReply = SearchFailed | SearchParsed(docs: Option<seq<Doc>>)

  datatype SearchState = SearchState(query: string, results: seq<Doc>, loading: bool)

  /** The state after an input change, and the URL fetched, if any. */
  datatype SearchStep = SearchStep(state: SearchState, request: Option<string>)

  const MinQueryLength := 3
  const SearchEndpoint := "https://openlibrary.org/search.json?q="
  const SearchLimit := "&limit=5"

  function SearchUrl(q: string): string {
    SearchEndpoint + FormatSearchQuery(q) + SearchLimit
  }

  /** The `q` parameter of a search URL, as the catalogue reads it. */
  function SearchQueryOf(url: string): Option<string> {
    if |url| >= |SearchEndpoint| + |SearchLimit| && url[..|SearchEndpoint|] == SearchEndpoint
       && url[|url| - |SearchLimit|..] == SearchLimit
    then Some(url[|SearchEndpoint|..|url| - |SearchLimit|])
    else None
  }

  /** The catalogue reads back exactly the query placed in a search URL. */
  lemma SearchUrlParts(e: string)
    ensures SearchQueryOf(SearchEndpoint + e + SearchLimit) == Some(e)
  {
    var u := SearchEndpoint + e + SearchLimit;
    assert u[..|SearchEndpoint|] == SearchEndpoint;
    assert u[|u| - |SearchLimit|..] == SearchLimit;
    assert u[|SearchEndpoint|..|u| - |SearchLimit|] == e;
  }

  /** `handleSearchChange(value)` once its search has settled. A raw value
      shorter than three UTF-16 code units, counted before brackets and
      whitespace are removed, clears the results and sends nothing. Otherwise
      the search URL is fetched and its query decodes to the stripped, trimmed
      value; parsed `docs` become the results, a failure or a body without
      `docs` leaves none, and loading is off again afterwards. */
  function SearchChanged(st: SearchState, value: string, reply: SearchReply): (step: SearchStep)
    ensures step.state.query == value
    ensures step.request.None? <==> JsLength(value) < MinQueryLength
    ensures step.request.None? ==> step.state.results == [] && step.state.loading == st.loading
    ensures step.request.Some? ==> !step.state.loading
    ensures step.request.Some? ==> SearchQueryOf(step.request.value) == Some(FormatSearchQuery(value))
    ensures step.request.Some? ==> SearchQueryOf(step.request.value).Some?
                                   && FormDecode(SearchQueryOf(step.request.value).value) == Some(Trim(StripBrackets(value)))
    ensures reply.SearchFailed? ==> step.state.results == []
    ensures step.request.Some? && reply.SearchParsed? ==> step.state.results == reply.docs.GetOr([])
  {
    if JsLength(value) < MinQueryLength then
      SearchStep(SearchState(value, [], st.loading), None)
    else
      var results := match reply
        case SearchFailed => []
        case SearchParsed(docs) => docs.GetOr([]);
      SearchUrlParts(FormatSearchQuery(value));
      SearchStep(SearchState(value, results, false), Some(SearchUrl(value)))
  }

  /** The guard looks at the raw value: a value of three or more code units
      made only of brackets and whitespace, such as `[ ]`, passes it, yet the
      query it sends is empty. */
  lemma GuardPrecedesTrimming(st: SearchState, value: string, reply: SearchReply)
    requires JsLength(value) >= MinQueryLength
    requires forall k :: 0 <= k < |value| ==> IsBracket(value[k]) || IsWhitespace(value[k])
    ensures SearchChanged(st, value, reply).request == Some(SearchEndpoint + SearchLimit)
  {
    BlankAfterStripping(value);
    BlankQueryIsEmpty(value);
  }

  lemma BlankAfterStripping(value: string)
    requires forall k :: 0 <= k < |value| ==> IsBracket(value[k]) || IsWhitespace(value[k])
    ensures AllWhitespace(StripBrackets(value))
  {
    var r := StripBrackets(value);
    forall k | 0 <= k < |r|
      ensures IsWhitespace(r[k])
    {
      assert r[k] in multiset(r);
      assert r[k] in multiset(value);
      var j :| 0 <= j < |value| && value[j] == r[k];
    }
  }

  lemma BlankQueryIsEmpty(q: string)
    requires AllWhitespace(StripBrackets(q))
    ensures SearchUrl(q) == SearchEndpoint + SearchLimit
  {
    assert Trim(StripBrackets(q)) == "";
    assert Encode("") == "";
    assert FormatSearchQuery(q) == "";
  }

  // ---------------------------------------------------------------------------
  // Result rendering

  const PlaceholderCover := "/images/book_placeholder.webp"

  /** The link of a result: `/book` followed by its work key. */
  function ResultHref(d: Doc): (href: string)
    ensures |href| == 5 + |d.key| && href[..5] == "/book" && href[5..] == d.key
  {
    "/book" + d.key
  }

  /** The thumbnail of a result: the medium cover of a truthy `cover_i`,
      otherwise the placeholder. */
  function ResultCover(d: Doc): (src: string)
    ensures src == PlaceholderCover <==> d.coverId.None? || d.coverId.value == 0
    ensures src != PlaceholderCover ==> OpenLibrary.CoverIdOf(src, "M") == d.coverId
  {
    if d.coverId.Some? && d.coverId.value != 0 then
      var u := OpenLibrary.CoverUrl(d.coverId.value, "M");
      OpenLibrary.CoverUrlRoundTrip(d.coverId.value, "M");
      assert u[..|OpenLibrary.CoversBase|] == OpenLibrary.CoversBase;
      assert |u| > |PlaceholderCover|;
      u
    else
      PlaceholderCover
  }
}

=== FILE: open_library.dfy ===
/** The Open Library shapes and normalisers shared by the search bar and the
    two book-detail pages: description/biography text that arrives either as a
    plain string or wrapped in `{ value }`, and cover/photo image URLs built
    from numeric image ids. */
module OpenLibrary {

  import opened Wrappers
  import opened JsString

  // ---------------------------------------------------------------------------
  // Text fields (`description`, `bio`)

  /** The `value` member of a wrapped text: the key may be missing, present
      but `null`/`undefined`, or hold a string. */
  datatype ValueField = NoKey | Nullish | Value(s: string)

  /** `string | { value?: string } | undefined` as the catalogue sends it;
      `Absent` covers both `undefined` and `null`. */
  datatype Text = Absent | Plain(s: string) | Wrapped(field: ValueField)

  /** The string a text carries, if any. */
  function RawText(t: Text): Option<string> {
    match t
    case Plain(s) => Some(s)
    case Wrapped(Value(s)) => Some(s)
    case _ => None
  }

  /** True when the text carries a string that has something besides
      whitespace, so that trimming leaves a non-empty string. */
  predicate HasContent(t: Text) {
    RawText(t).Some? && !AllWhitespace(RawText(t).value)
  }

  /** `formatDescription`: falsy input gives `null`; a string is trimmed
      (so a whitespace-only string gives `""`, not `null`); a wrapped value
      gives its trimmed value, or `null` when the value is missing or trims to
      nothing. Any string it returns is the trimmed carried string. */
  function FormatDescription(t: Text): (r: Option<string>)
    ensures r.Some? ==> RawText(t).Some? && r.value == Trim(RawText(t).value)
    ensures r.Some? && r.value != "" <==> HasContent(t)
    ensures r == Some("") <==> t.Plain? && t.s != "" && AllWhitespace(t.s)
  {
    if t.Absent? || t == Plain("") then None
    else if t.Plain? then Some(Trim(t.s))
    else if t.Wrapped? && (t.field.Value? || t.field.Nullish?) then
      var v := if t.field.Value? then Some(Trim(t.field.s)) else None;
      if v.Some? && v.value != "" then v else None
    else None
  }

  /** `formatDescription` case by case: a falsy input (missing or `""`) gives
      `null`, any other string comes back trimmed, an object with a string
      `value` gives that value trimmed unless it trims to nothing, and an
      object whose `value` is missing or nullish gives `null`. */
  lemma FormatDescriptionCases(t: Text)
    ensures t.Absent? || t == Plain("") ==> FormatDescription(t).None?
    ensures t.Plain? && t.s != "" ==> FormatDescription(t) == Some(Trim(t.s))
    ensures t.Wrapped? && t.field.Value? ==>
              FormatDescription(t) == if Trim(t.field.s) == "" then None else Some(Trim(t.field.s))
    ensures t.Wrapped? && !t.field.Value? ==> FormatDescription(t).None?
  {
    match t
    case Absent =>
    case Plain(s) =>
    case Wrapped(f) =>
  }

  /** `formatAuthorBio`: the same normalisation written without the
      `"value" in` test; `FormatAgree` proves the two never differ. */
  function FormatAuthorBio(t: Text): (r: Option<string>)
    ensures r.Some? ==> IsTrimmed(r.value)
  {
    match t
    case Absent => None
    case Plain(s) => if s == "" then None else Some(Trim(s))
    case Wrapped(f) =>
      var v := match f case Value(s) => Some(Trim(s)) case _ => None;
      if v.Some? && v.value != "" then v else None
  }

  /** Both formatters give the same result on every input. */
  lemma FormatAgree(t: Text)
    ensures FormatAuthorBio(t) == FormatDescription(t)
  {
  }

  // ---------------------------------------------------------------------------
  // Image URLs

  const CoversBase := "https://covers.openlibrary.org/b/id/"

  /** `https://covers.openlibrary.org/b/id/<id>-<size>.jpg`. */
  function CoverUrl(id: int, size: string): string {
    CoversBase + IntToString(id) + "-" + size + ".jpg"
  }

  /** Reads the image id back out of a cover URL of the given size. */
  function CoverIdOf(url: string, size: string): Option<int> {
    var suffix := "-" + size + ".jpg";
    if |url| >= |CoversBase| + |suffix| && url[..|CoversBase|] == CoversBase && url[|url| - |suffix|..] == suffix then
      ParseInt(url[|CoversBase|..|url| - |suffix|])
    else
      None
  }

  /** A text whose ends are known is those ends around its middle. */
  lemma Reassemble(u: string, head: string, tail: string)
    requires |head| + |tail| <= |u|
    requires u[..|head|] == head && u[|u| - |tail|..] == tail
    ensures u == head + u[|head|..|u| - |tail|] + tail
  {
    var mid := u[|head|..|u| - |tail|];
    assert u == u[..|head|] + mid + u[|u| - |tail|..];
  }

  /** Only a URL built by `CoverUrl` reads back as an id: the id pins the
      URL, and `.../b/id/0042-L.jpg` names no id. */
  lemma CoverIdIsCanonical(url: string, size: string)
    ensures CoverIdOf(url, size).Some? ==> url == CoverUrl(CoverIdOf(url, size).value, size)
  {
    var suffix := "-" + size + ".jpg";
    if CoverIdOf(url, size).Some? {
      var digits := url[|CoversBase|..|url| - |suffix|];
      var id := CoverIdOf(url, size).value;
      assert ParseInt(digits) == Some(id);
      ParsedTextIsCanonical(digits);
      Reassemble(url, CoversBase, suffix);
      assert CoverUrl(id, size) == CoversBase + digits + suffix;
    }
  }

  /** A cover URL names exactly the image it was built from. */
  lemma CoverUrlRoundTrip(id: int, size: string)
    ensures CoverIdOf(CoverUrl(id, size), size) == Some(id)
  {
    var digits := IntToString(id);
    var url := CoverUrl(id, size);
    var suffix := "-" + size + ".jpg";
    assert url == CoversBase + digits + suffix;
    assert url[..|CoversBase|] == CoversBase;
    assert url[|url| - |suffix|..] == suffix;
    assert url[|CoversBase|..|url| - |suffix|] == digits;
    IntToStringRoundTrip(id);
  }

  /** `ids?.[0]` when it is truthy (a number other than 0). */
  function FirstImageId(ids: Option<seq<int>>): (r: Option<int>)
    ensures r.Some? <==> ids.Some? && |ids.value| > 0 && ids.value[0] != 0
    ensures r.Some? ==> r.value == ids.value[0]
  {
    if ids.Some? && |ids.value| > 0 && ids.value[0] != 0 then Some(ids.value[0]) else None
  }

  /** The large image URL of the first image id, or `null` when there is no
      truthy first id; used for book covers and author photos alike. */
  function LargeImageUrl(ids: Option<seq<int>>): (r: Option<string>)
    ensures r.Some? <==> ids.Some? && |ids.value| > 0 && ids.value[0] != 0
    ensures r.Some? ==> CoverIdOf(r.value, "L") == Some(ids.value[0])
  {
    match FirstImageId(ids)
    case None => None
    case Some(id) =>
      CoverUrlRoundTrip(id, "L");
      Some(CoverUrl(id, "L"))
  }

  // ---------------------------------------------------------------------------
  // Routing

  /** The `id` route parameter: absent, one value, or repeated. */
  datatype RouteParam = Missing | One(s: string) | Many(all: seq<string>)

  /** `Array.isArray(query.id) ? query.id[0] : query.id`. */
  function RouteId(p: RouteParam): (r: Option<string>)
    ensures r.Some? <==> p.One? || (p.Many? && |p.all| > 0)
    ensures p.One? ==> r == Some(p.s)
    ensures p.Many? && |p.all| > 0 ==> r == Some(p.all[0])
  {
    match p
    case Missing => None
    case One(s) => Some(s)
    case Many(all) => if |all| > 0 then Some(all[0]) else None
  }

  /** The work query runs only for a truthy id (`enabled: !!id`). */
  predicate WorkQueryEnabled(p: RouteParam) {
    RouteId(p).Some? && Truthy(RouteId(p).value)
  }

  // ---------------------------------------------------------------------------
  // Works and authors

  /** `{ key?: string }` under an author entry. */
  datatype AuthorLink = AuthorLink(key: Option<string>)

  /** One element of `authors`: `{ author?: { key?: string } }`. */
  datatype AuthorEntry = AuthorEntry(author: Option<AuthorLink>)

  /** A work record; an element of `authors` may itself be `null`. */
  datatype Work = Work(title: Option<string>, description: Text, covers: Option<seq<int>>,
                       authors: Option<seq<Option<AuthorEntry>>>)

  datatype Author = Author(name: Option<string>, birthDate: Option<string>, bio: Text, photos: Option<seq<int>>)

  /** `bookData?.authors?.[0]?.author?.key`: the key of the first author entry,
      if the work has loaded and every link on the way is present. */
  function AuthorKey(work: Option<Work>): (r: Option<string>)
    ensures r.Some? <==>
              && work.Some? && work.value.authors.Some? && |work.value.authors.value| > 0
              && work.value.authors.value[0].Some? && work.value.authors.value[0].value.author.Some?
              && work.value.authors.value[0].value.author.value.key.Some?
    ensures r.Some? ==> r.value == work.value.authors.value[0].value.author.value.key.value
  {
    if work.None? || work.value.authors.None? || |work.value.authors.value| == 0 then None
    else
      match work.value.authors.value[0]
      case None => None
      case Some(entry) =>
        match entry.author
        case None => None
        case Some(link) => link.key
  }

  /** The author query runs only for a truthy key (`enabled: !!authorId`). */
  predicate AuthorLookupEnabled(work: Option<Work>) {
    AuthorKey(work).Some? && Truthy(AuthorKey(work).value)
  }

  /** `bookImageUrl`: the large cover of `covers[0]`, or `null`. */
  function BookImageUrl(work: Option<Work>): (r: Option<string>)
    ensures r.Some? <==> work.Some? && work.value.covers.Some? && |work.value.covers.value| > 0
                         && work.value.covers.value[0] != 0
    ensures r.Some? ==> CoverIdOf(r.value, "L") == Some(work.value.covers.value[0])
  {
    if work.None? then None else LargeImageUrl(work.value.covers)
  }

  /** `authorImageUrl`: the large image of `photos[0]`, or `null`. */
  function AuthorImageUrl(author: Option<Author>): (r: Option<string>)
    ensures r.Some? <==> author.Some? && author.value.photos.Some? && |author.value.photos.value| > 0
                         && author.value.photos.value[0] != 0
    ensures r.Some? ==> CoverIdOf(r.value, "L") == Some(author.value.photos.value[0])
  {
    if author.None? then None else LargeImageUrl(author.value.photos)
  }

  /** The `bio` of the loaded author, `undefined` while there is none. */
  function AuthorBio(author: Option<Author>): Text {
    if author.Some? then author.value.bio else Absent
  }

  // ---------------------------------------------------------------------------
  // Read-more toggles

  /** The two independent "Read more" flags of a book page. */
  datatype Expansion = Expansion(description: bool, author: bool)

  const Collapsed := Expansion(false, false)

  /** The label of a "Read more" button, description or author. */
  function ReadMoreLabel(expanded: bool): string {
    if expanded then "Read less" else "Read more"
  }

  /** A click on the description button flips that flag and no other. */
  function ToggleDescription(e: Expansion): (r: Expansion)
    ensures r.description != e.description && r.author == e.author
  {
    e.(description := !e.description)
  }

  /** A click on the author button flips that flag and no other. */
  function ToggleAuthor(e: Expansion): (r: Expansion)
    ensures r.author != e.author && r.description == e.description
  {
    e.(author := !e.author)
  }

  lemma ToggleTwiceRestores(e: Expansion)
    ensures ToggleDescription(ToggleDescription(e)) == e
    ensures ToggleAuthor(ToggleAuthor(e)) == e
    ensures ToggleAuthor(ToggleDescription(e)) == ToggleDescription(ToggleAuthor(e))
  {
  }

  /** A page opens collapsed with both buttons reading "Read more"; a click
      swaps the label of its own button and leaves the other one alone. */
  lemma ReadMoreLabels(e: Expansion)
    ensures ReadMoreLabel(Collapsed.description) == "Read more" && ReadMoreLabel(Collapsed.author) == "Read more"
    ensures ReadMoreLabel(ToggleDescription(e).description) != ReadMoreLabel(e.description)
    ensures ReadMoreLabel(ToggleDescription(e).author) == ReadMoreLabel(e.author)
    ensures ReadMoreLabel(ToggleAuthor(e).author) != ReadMoreLabel(e.author)
    ensures ReadMoreLabel(ToggleAuthor(e).description) == ReadMoreLabel(e.description)
  {
  }
}

=== FILE: profile_edit.dfy ===
/** The profile editor: `editProfileSchema`, the prefill from the session
    user, the camelCase form to snake_case payload mapping, and the
    photo-crop state around `handleSaveCrop`. */
module ProfileEdit {

  import opened Wrappers
  import opened JsString
  import opened Forms
  import opened Api

  datatype ProfileForm = ProfileForm(firstName: string, lastName: string, birthdate: string, bio: string)

  /** The form's `defaultValues`. */
  const EmptyForm := ProfileForm("", "", "", "")

  const MaxBioLength := 500

  function Issues(f: ProfileForm): seq<Issue> {
    MinLength("firstName", f.firstName, 1, "First name is required")
    + MinLength("lastName", f.lastName, 1, "Last name is required")
    + MinLength("birthdate", f.birthdate, 1, "Birthdate is required")
    + MaxLength("bio", f.bio, MaxBioLength)
  }

  /** Names and birthdate non-empty; the bio may be empty but has at most
      500 UTF-16 code units. */
  predicate Valid(f: ProfileForm) {
    f.firstName != "" && f.lastName != "" && f.birthdate != "" && JsLength(f.bio) <= MaxBioLength
  }

  lemma IssuesIffInvalid(f: ProfileForm)
    ensures Issues(f) == [] <==> Valid(f)
  {
  }

  /** An empty bio is always acceptable; only its length is limited. */
  lemma EmptyBioAccepted(f: ProfileForm)
    requires f.firstName != "" && f.lastName != "" && f.birthdate != ""
    ensures Valid(f.(bio := ""))
  {
  }

  // ---------------------------------------------------------------------------
  // Prefill

  /** The session user; every profile field may be missing. */
  datatype User = User(userId: string, email: string, firstName: Option<string>, lastName: Option<string>,
                       profileImage: Option<string>, bio: Option<string>, birthdate: Option<string>)

  /** `s.slice(0, n)` on whole characters: the longest prefix of `s` that
      fits in `n` UTF-16 code units. */
  function JsPrefix(s: string, n: nat): (r: string)
    ensures |r| <= |s| && r == s[..|r|]
    ensures JsLength(r) <= n
    ensures JsLength(s) <= n ==> r == s
    ensures |r| < |s| ==> JsLength(s[..|r| + 1]) > n
    decreases |s|
  {
    if |s| == 0 then ""
    else if Utf16Units(s[0]) > n then
      PrefixLength(s, 1);
      ""
    else
      var rest := JsPrefix(s[1..], n - Utf16Units(s[0]));
      var r := [s[0]] + rest;
      PrefixLength(s, |s|);
      PrefixLength(s, |r|);
      PrefixLength(s, if |r| < |s| then |r| + 1 else |r|);
      r
  }

  /** The length of a non-empty prefix, split at its first character. */
  lemma PrefixLength(s: string, k: nat)
    requires 0 < k <= |s|
    ensures s[..k] == [s[0]] + s[1..][..k - 1]
    ensures JsLength(s[..k]) == Utf16Units(s[0]) + JsLength(s[1..][..k - 1])
  {
    assert s[..k] == [s[0]] + s[1..][..k - 1];
    assert s[..k][1..] == s[1..][..k - 1];
  }

  /** On text in the Basic Multilingual Plane, such as an ISO date, the
      prefix is the first `n` characters. */
  lemma {:induction false} JsPrefixOfBmp(s: string, n: nat)
    requires forall k :: 0 <= k < |s| ==> s[k] as int < 0x1_0000
    ensures JsPrefix(s, n) == s[..if |s| < n then |s| else n]
    decreases |s|
  {
    if |s| > 0 && n > 0 {
      JsPrefixOfBmp(s[1..], n - 1);
    }
  }

  const BirthdateLength := 10

  /** The `reset` effect: with no user nothing happens; otherwise each missing
      field becomes `""` and the birthdate is cut to its first ten code units
      (the date part of a timestamp). */
  function Prefill(user: Option<User>, current: ProfileForm): (f: ProfileForm)
    ensures user.None? ==> f == current
    ensures user.Some? ==> f.firstName == user.value.firstName.GetOr("")
                           && f.lastName == user.value.lastName.GetOr("")
                           && f.bio == user.value.bio.GetOr("")
    ensures user.Some? ==> JsLength(f.birthdate) <= BirthdateLength
    ensures user.Some? && user.value.birthdate.Some? ==>
              |f.birthdate| <= |user.value.birthdate.value| && f.birthdate == user.value.birthdate.value[..|f.birthdate|]
    ensures user.Some? && user.value.birthdate.Some? && |f.birthdate| < |user.value.birthdate.value| ==>
              JsLength(user.value.birthdate.value[..|f.birthdate| + 1]) > BirthdateLength
    ensures user.Some? && (user.value.birthdate.None? || user.value.birthdate.value == "") ==> f.birthdate == ""
  {
    match user
    case None => current
    case Some(u) =>
      var birthdate := if u.birthdate.Some? && Truthy(u.birthdate.value) then JsPrefix(u.birthdate.value, BirthdateLength) else "";
      ProfileForm(u.firstName.GetOr(""), u.lastName.GetOr(""), birthdate, u.bio.GetOr(""))
  }

  /** A stored birthdate in the Basic Multilingual Plane (a date or an ISO
      timestamp) prefills as its first ten characters: the date part. */
  lemma PrefillTakesDatePart(u: User, current: ProfileForm)
    requires u.birthdate.Some?
    requires forall k :: 0 <= k < |u.birthdate.value| ==> u.birthdate.value[k] as int < 0x1_0000
    ensures var b := u.birthdate.value;
            Prefill(Some(u), current).birthdate == b[..if |b| < BirthdateLength then |b| else BirthdateLength]
  {
    JsPrefixOfBmp(u.birthdate.value, BirthdateLength);
  }

  // ---------------------------------------------------------------------------
  // Payload

  datatype ProfilePayload = ProfilePayload(first_name: string, last_name: string, birthdate: string, bio: string)

  const ProfilePath := "/user/profile"

  /** The body `onSubmit` posts: `firstName` becomes `first_name`, `lastName`
      becomes `last_name`; `birthdate` and `bio` keep their names. */
  function ToPayload(f: ProfileForm): ProfilePayload {
    ProfilePayload(f.firstName, f.lastName, f.birthdate, f.bio)
  }

  /** The mapping back from the snake_case names. */
  function FromPayload(p: ProfilePayload): ProfileForm {
    ProfileForm(p.first_name, p.last_name, p.birthdate, p.bio)
  }

  /** The renaming loses nothing in either direction. */
  lemma PayloadRoundTrip(f: ProfileForm, p: ProfilePayload)
    ensures FromPayload(ToPayload(f)) == f
    ensures ToPayload(FromPayload(p)) == p
  {
  }

  /** Saving an untouched prefilled form sends back the stored profile, when
      every field is present and the birthdate is already a ten-unit date. */
  lemma UntouchedPrefillSendsStoredProfile(u: User, current: ProfileForm)
    requires u.firstName.Some? && u.lastName.Some? && u.bio.Some? && u.birthdate.Some?
    requires JsLength(u.birthdate.value) <= BirthdateLength
    ensures ToPayload(Prefill(Some(u), current))
            == ProfilePayload(u.firstName.value, u.lastName.value, u.birthdate.value, u.bio.value)
  {
  }

  const UpdateFailedAlert := "Error updating profile. Please try again."

  datatype Save = SaveBlocked(issues: seq<Issue>) | Saved(path: string, payload: ProfilePayload, alert: Option<string>)

  /** A submit: blocked by the schema, or the payload is posted and a failed
      call raises the fixed alert. */
  function Submit(f: ProfileForm, reply: Reply): (s: Save)
    ensures s.Saved? <==> Valid(f)
    ensures s.SaveBlocked? ==> s.issues == Issues(f)
    ensures s.Saved? ==> s.path == ProfilePath
    ensures s.Saved? ==> FromPayload(s.payload) == f
    ensures s.Saved? ==> (s.alert.None? <==> ApiPost(reply).Ok?)
    ensures s.Saved? && s.alert.Some? ==> s.alert.value == UpdateFailedAlert
  {
    IssuesIffInvalid(f);
    var issues := Issues(f);
    if issues != [] then SaveBlocked(issues)
    else Saved(ProfilePath, ToPayload(f), if ApiPost(reply).Ok? then None else Some(UpdateFailedAlert))
  }

  /** The form as first rendered, before the session user has loaded,
      cannot be saved: each required field reports its message. */
  lemma EmptyFormBlocked(reply: Reply)
    ensures Submit(EmptyForm, reply).SaveBlocked?
    ensures FirstMessage(Submit(EmptyForm, reply).issues, "firstName") == Some("First name is required")
    ensures FirstMessage(Submit(EmptyForm, reply).issues, "birthdate") == Some("Birthdate is required")
    ensures FirstMessage(Submit(EmptyForm, reply).issues, "bio").None?
  {
    var names := [Issue("firstName", "First name is required"), Issue("lastName", "Last name is required")];
    var date := [Issue("birthdate", "Birthdate is required")];
    assert Issues(EmptyForm) == names + date;
    FirstMessageAppend(names, date, "birthdate");
  }

  // ---------------------------------------------------------------------------
  // Photo crop

  /** The crop rectangle the cropper reports, in pixels. */
  datatype Area = Area(x: int, y: int, width: int, height: int)

  /** `preview` is the object URL of the chosen file (the cropper is open
      while it is set), `cropArea` the last reported rectangle. */
  datatype CropState = CropState(preview: Option<string>, cropArea: Option<Area>, uploading: bool)

  /** How the upload `fetch` settled: it resolves on any HTTP status and
      rejects only on a network failure. */
  datatype UploadResult = Uploaded | UploadRejected

  /** The state while the upload runs and after it settles, and whether an
      upload was sent at all. */
  datatype CropSave = CropSave(during: CropState, after: CropState, sent: bool)

  predicate CanSave(st: CropState) {
    st.preview.Some? && Truthy(st.preview.value) && st.cropArea.Some?
  }

  /** `handleSaveCrop`: without a preview or crop area it does nothing.
      Otherwise `uploading` is on during the upload and off afterwards
      whatever the outcome, and the preview is cleared only after an upload
      that resolved. */
  function SaveCrop(st: CropState, result: UploadResult): (s: CropSave)
    ensures !CanSave(st) ==> !s.sent && s.during == st && s.after == st
    ensures CanSave(st) ==> s.sent && s.during.uploading && s.during.preview == st.preview
    ensures CanSave(st) ==> !s.after.uploading && s.after.cropArea == st.cropArea
    ensures CanSave(st) ==> (s.after.preview.None? <==> result == Uploaded)
    ensures CanSave(st) && result == UploadRejected ==> s.after.preview == st.preview
  {
    if !CanSave(st) then CropSave(st, st, false)
    else
      var during := st.(uploading := true);
      var after := if result == Uploaded then during.(preview := None) else during;
      CropSave(during, after.(uploading := false), true)
  }

  /** `handleImageChange`: a chosen file opens the cropper on its object URL;
      no file changes nothing. */
  function ChooseFile(st: CropState, objectUrl: Option<string>): (r: CropState)
    ensures objectUrl.Some? ==> r.preview == objectUrl && r.cropArea == st.cropArea && r.uploading == st.uploading
    ensures objectUrl.None? ==> r == st
  {
    if objectUrl.Some? then st.(preview := objectUrl) else st
  }

  /** The window `keydown` handler: Escape closes the cropper. */
  function KeyDown(st: CropState, key: string): (r: CropState)
    ensures key == "Escape" ==> r.preview.None? && r.cropArea == st.cropArea && r.uploading == st.uploading
    ensures key != "Escape" ==> r == st
  {
    if key == "Escape" then st.(preview := None) else st
  }

  /** The Cancel button in the crop dialog: the same as Escape. */
  function CancelCrop(st: CropState): (r: CropState)
    ensures r == KeyDown(st, "Escape")
    ensures !CanSave(r)
  {
    st.(preview := None)
  }

  /** `onCropComplete`: the cropper reports the rectangle in pixels. */
  function CropComplete(st: CropState, pixels: Option<Area>): (r: CropState)
    ensures r.cropArea == pixels && r.preview == st.preview && r.uploading == st.uploading
  {
    st.(cropArea := pixels)
  }

  const DefaultAvatar := "/images/user_profile.webp"

  /** The avatar shows the stored image, or the default one when there is no
      user or no image. */
  function AvatarSrc(user: Option<User>): (src: string)
    ensures user.Some? && user.value.profileImage.Some? ==> src == user.value.profileImage.value
    ensures user.None? || user.value.profileImage.None? ==> src == DefaultAvatar
  {
    if user.Some? then user.value.profileImage.GetOr(DefaultAvatar) else DefaultAvatar
  }

  /** After any save attempt nothing is left uploading, and a later save
      without a new file does nothing. */
  lemma SaveThenSaveAgain(st: CropState, first: UploadResult, second: UploadResult)
    requires CanSave(st)
    ensures !SaveCrop(st, first).after.uploading
    ensures first == Uploaded ==> !SaveCrop(SaveCrop(st, first).after, second).sent
  {
  }
}

=== FILE: register.dfy ===
/** The registration form (`registerSchema`): non-empty names, a valid email,
    password and confirmation of at least six characters, and the two
    passwords equal, the mismatch being reported under `confirmPassword`.
    Submitting a valid form sends nothing; the data is only logged. */
module Register {

  import opened Wrappers
  import opened JsString
  import opened Forms

  datatype RegisterForm = RegisterForm(firstName: string, lastName: string, email: string,
                                       password: string, confirmPassword: string)

  const MinPasswordLength := 6
  const MismatchMessage := "Passwords do not match"

  /** The issues the schema reports, in schema order: the field checks, then
      the password-match refinement. The email check is the schema library's
      and is a parameter here. */
  function Issues(f: RegisterForm, isEmail: string -> bool): seq<Issue> {
    MinLength("firstName", f.firstName, 1, "First name is required")
    + MinLength("lastName", f.lastName, 1, "Last name is required")
    + Check(isEmail(f.email), "email", "Enter a valid email")
    + MinLength("password", f.password, MinPasswordLength, "Password must be at least 6 characters")
    + MinLength("confirmPassword", f.confirmPassword, MinPasswordLength, "Please confirm your password")
    + Check(f.password == f.confirmPassword, "confirmPassword", MismatchMessage)
  }

  /** The registration rules stated directly. */
  predicate Valid(f: RegisterForm, isEmail: string -> bool) {
    && f.firstName != "" && f.lastName != "" && isEmail(f.email)
    && JsLength(f.password) >= MinPasswordLength && JsLength(f.confirmPassword) >= MinPasswordLength
    && f.password == f.confirmPassword
  }

  /** The schema accepts a form exactly when it satisfies the rules. */
  lemma IssuesIffInvalid(f: RegisterForm, isEmail: string -> bool)
    ensures Issues(f, isEmail) == [] <==> Valid(f, isEmail)
  {
  }

  /** Unequal passwords put "Passwords do not match" under the confirmation
      field whenever the confirmation is long enough for that to be its
      first issue. */
  lemma MismatchShownUnderConfirmation(f: RegisterForm, isEmail: string -> bool)
    ensures FirstMessage(Issues(f, isEmail), "confirmPassword") == Some(MismatchMessage)
            <==> JsLength(f.confirmPassword) >= MinPasswordLength && f.password != f.confirmPassword
  {
    var before := MinLength("firstName", f.firstName, 1, "First name is required")
                  + MinLength("lastName", f.lastName, 1, "Last name is required")
                  + Check(isEmail(f.email), "email", "Enter a valid email")
                  + MinLength("password", f.password, MinPasswordLength, "Password must be at least 6 characters");
    var confirm := MinLength("confirmPassword", f.confirmPassword, MinPasswordLength, "Please confirm your password");
    var refine := Check(f.password == f.confirmPassword, "confirmPassword", MismatchMessage);
    assert FirstMessage(before, "confirmPassword").None?;
    FirstMessageAppend(before + confirm, refine, "confirmPassword");
    FirstMessageAppend(before, confirm, "confirmPassword");
  }

  /** A password field shorter than six characters is reported under that
      field with its own message. */
  lemma ShortPasswordReported(f: RegisterForm, isEmail: string -> bool)
    ensures FirstMessage(Issues(f, isEmail), "password") == Some("Password must be at least 6 characters")
            <==> JsLength(f.password) < MinPasswordLength
  {
    var before := MinLength("firstName", f.firstName, 1, "First name is required")
                  + MinLength("lastName", f.lastName, 1, "Last name is required")
                  + Check(isEmail(f.email), "email", "Enter a valid email");
    var pw := MinLength("password", f.password, MinPasswordLength, "Password must be at least 6 characters");
    var confirm := MinLength("confirmPassword", f.confirmPassword, MinPasswordLength, "Please confirm your password");
    var refine := Check(f.password == f.confirmPassword, "confirmPassword", MismatchMessage);
    assert FirstMessage(before, "password").None?;
    assert FirstMessage(confirm, "password").None?;
    assert FirstMessage(refine, "password").None?;
    FirstMessageAppend(before + pw + confirm, refine, "password");
    FirstMessageAppend(before + pw, confirm, "password");
    FirstMessageAppend(before, pw, "password");
  }

  /** What a submit does: the form is blocked by its issues, or its data is
      logged. No request is sent in either case. */
  datatype Submission = Blocked(issues: seq<Issue>) | Logged(form: RegisterForm)

  function Submit(f: RegisterForm, isEmail: string -> bool): (s: Submission)
    ensures s.Logged? <==> Valid(f, isEmail)
    ensures s.Logged? ==> s.form == f
    ensures s.Blocked? ==> s.issues != [] && s.issues == Issues(f, isEmail)
  {
    IssuesIffInvalid(f, isEmail);
    var issues := Issues(f, isEmail);
    if issues == [] then Logged(f) else Blocked(issues)
  }
}

=== FILE: sign_in.dfy ===
/** The sign-in form: `signInSchema`, the `{email, password}` payload, and
    the server-error state set by `onSubmit`. */
module SignIn {

  import opened Wrappers
  import opened JsString
  import opened Forms
  import opened Api

  datatype SignInForm = SignInForm(email: string, password: string)

  function Issues(f: SignInForm, isEmail: string -> bool): seq<Issue> {
    Check(isEmail(f.email), "email", "Enter a valid email")
    + MinLength("password", f.password, 6, "Password must be at least 6 characters")
  }

  predicate Valid(f: SignInForm, isEmail: string -> bool) {
    isEmail(f.email) && JsLength(f.password) >= 6
  }

  lemma IssuesIffInvalid(f: SignInForm, isEmail: string -> bool)
    ensures Issues(f, isEmail) == [] <==> Valid(f, isEmail)
  {
  }

  /** The body posted to `/auth/signIn`. */
  datatype Payload = Payload(email: string, password: string)

  const SignInPath := "/auth/signIn"
  const FallbackError := "An unexpected error occurred"

  /** `${err}` || "An unexpected error occurred". */
  function ServerErrorText(e: JsError): (s: string)
    ensures s != ""
    ensures ErrorToString(e) != "" ==> s == ErrorToString(e)
    ensures ErrorToString(e) == "" ==> s == FallbackError
  {
    var text := ErrorToString(e);
    if Truthy(text) then text else FallbackError
  }

  /** The error `setUser(res)` throws: the auth context provides only `user`
      and `loading`, so `setUser` is `undefined` (message as V8 words it). */
  const SetUserNotAFunction := JsError("TypeError", "setUser is not a function")

  /** One submit: the issues that block it, or the payload sent, the server
      error while the request is in flight, and the server error after it. */
  datatype Attempt =
    | Blocked(issues: seq<Issue>, error: Option<string>)
    | Sent(path: string, payload: Payload, errorWhilePending: Option<string>, errorAfter: Option<string>)

  /** `onSubmit` as written: a successful reply reaches `setUser(res)`, which
      throws, so the catch block reports that error. */
  function SubmitAsWritten(f: SignInForm, isEmail: string -> bool, previous: Option<string>, reply: Reply): (a: Attempt)
    ensures a.Blocked? <==> !Valid(f, isEmail)
    ensures a.Blocked? ==> a.issues == Issues(f, isEmail) && a.error == previous
    ensures a.Sent? ==> a.path == SignInPath && a.payload == Payload(f.email, f.password)
    ensures a.Sent? ==> a.errorWhilePending.None? && a.errorAfter.Some?
  {
    IssuesIffInvalid(f, isEmail);
    var issues := Issues(f, isEmail);
    if issues != [] then Blocked(issues, previous)
    else
      var thrown := match ApiPost(reply) case Ok(_) => SetUserNotAFunction case Err(e) => e;
      Sent(SignInPath, Payload(f.email, f.password), None, Some(ServerErrorText(thrown)))
  }

  /** Every successful sign-in ends with an error alert. */
  lemma SuccessfulSignInShowsError(f: SignInForm, isEmail: string -> bool, previous: Option<string>, body: Option<Json>)
    requires Valid(f, isEmail)
    ensures SubmitAsWritten(f, isEmail, previous, Response(true, 200, body)).errorAfter
            == Some("TypeError: setUser is not a function")
  {
    IssuesIffInvalid(f, isEmail);
    assert ApiPost(Response(true, 200, body)).Ok?;
    SetUserErrorText();
  }

  lemma SetUserErrorText()
    ensures ServerErrorText(SetUserNotAFunction) == "TypeError: setUser is not a function"
  {
    assert ErrorToString(SetUserNotAFunction) == "TypeError" + ": " + "setUser is not a function";
  }

  /** `onSubmit` as evidently intended: the server error is cleared before
      the request, stays clear when the call succeeds, and otherwise carries
      the thrown error's string form. */
  function Submit(f: SignInForm, isEmail: string -> bool, previous: Option<string>, reply: Reply): (a: Attempt)
    ensures a.Blocked? <==> !Valid(f, isEmail)
    ensures a.Blocked? ==> a.issues == Issues(f, isEmail) && a.error == previous
    ensures a.Sent? ==> a.path == SignInPath && a.payload == Payload(f.email, f.password) && a.errorWhilePending.None?
    ensures a.Sent? ==> (a.errorAfter.None? <==> ApiPost(reply).Ok?)
    ensures a.Sent? && ApiPost(reply).Err? ==> a.errorAfter == Some(ServerErrorText(ApiPost(reply).error))
  {
    IssuesIffInvalid(f, isEmail);
    var issues := Issues(f, isEmail);
    if issues != [] then Blocked(issues, previous)
    else
      var after := match ApiPost(reply) case Ok(_) => None case Err(e) => Some(ServerErrorText(e));
      Sent(SignInPath, Payload(f.email, f.password), None, after)
  }

  /** A rejected sign-in shows `Error: <message>`, where the message is the
      server's `error` or names the status. */
  lemma RejectedSignInShowsServerMessage(f: SignInForm, isEmail: string -> bool, previous: Option<string>,
                                         status: int, msg: string, members: map<string, string>)
    requires Valid(f, isEmail) && msg != ""
    ensures Submit(f, isEmail, previous, Response(false, status, Some(Json(Some(msg), members)))).errorAfter
            == Some("Error: " + msg)
  {
    IssuesIffInvalid(f, isEmail);
    assert ErrorToString(JsError("Error", msg)) == "Error: " + msg;
  }

  /** Both versions send the same request and differ only after a
      successful reply. */
  lemma VersionsDifferOnlyOnSuccess(f: SignInForm, isEmail: string -> bool, previous: Option<string>, reply: Reply)
    ensures ApiPost(reply).Err? ==> SubmitAsWritten(f, isEmail, previous, reply) == Submit(f, isEmail, previous, reply)
    ensures Valid(f, isEmail) && ApiPost(reply).Ok? ==>
              SubmitAsWritten(f, isEmail, previous, reply) != Submit(f, isEmail, previous, reply)
  {
  }
}

=== FILE: uri_component.dfy ===
/** `encodeURIComponent` and `decodeURIComponent` (ECMA-262, the Encode and
    Decode abstract operations) over well-formed strings: every character
    outside the RFC 3986 unreserved set and the marks `!~*'()` is written as
    the `%XX` escapes of its UTF-8 bytes (RFC 3629), hex digits upper case.
    The decoder is the partner the encoder is checked against. */
module UriComponent {

  import opened Wrappers

  type Byte = b: int | 0 <= b < 0x100

  /** The characters `encodeURIComponent` copies unchanged: ASCII letters and
      digits, the other RFC 3986 unreserved characters `-_.~`, and `!*'()`. */
  predicate IsUnescaped(c: char) {
    || 'A' <= c <= 'Z' || 'a' <= c <= 'z' || '0' <= c <= '9'
    || c == '-' || c == '_' || c == '.' || c == '!' || c == '~' || c == '*' || c == '\'' || c == '(' || c == ')'
  }

  predicate IsUpperHex(c: char) {
    '0' <= c <= '9' || 'A' <= c <= 'F'
  }

  /** True when `cp` is a Unicode scalar value, i.e. a valid Dafny `char`. */
  predicate IsScalar(cp: int) {
    0 <= cp < 0xD800 || 0xE000 <= cp < 0x11_0000
  }

  // ---------------------------------------------------------------------------
  // Encoding

  /** The UTF-8 encoding of one character: a lead byte announcing the length
      followed by continuation bytes `10xxxxxx`. */
  function Utf8(c: char): (bs: seq<Byte>)
    ensures 1 <= |bs| <= 4
    ensures |bs| == 1 <==> c as int < 0x80
    ensures |bs| == 1 ==> bs[0] == c as int
    ensures |bs| > 1 ==> forall k :: 0 <= k < |bs| ==> bs[k] >= 0x80
  {
    var cp := c as int;
    if cp < 0x80 then [cp]
    else if cp < 0x800 then [0xC0 + cp / 0x40, 0x80 + cp % 0x40]
    else if cp < 0x1_0000 then [0xE0 + cp / 0x1000, 0x80 + cp / 0x40 % 0x40, 0x80 + cp % 0x40]
    else [0xF0 + cp / 0x4_0000, 0x80 + cp / 0x1000 % 0x40, 0x80 + cp / 0x40 % 0x40, 0x80 + cp % 0x40]
  }

  function HexDigit(d: int): (c: char)
    requires 0 <= d < 16
    ensures IsUpperHex(c)
  {
    if d < 10 then ('0' as int + d) as char else ('A' as int + d - 10) as char
  }

  /** The value of a hex digit of either case, as `decodeURIComponent` reads it. */
  function HexValue(c: char): (r: Option<int>)
    ensures r.Some? ==> 0 <= r.value < 16
    ensures IsUpperHex(c) ==> r.Some?
  {
    if '0' <= c <= '9' then Some(c as int - '0' as int)
    else if 'A' <= c <= 'F' then Some(c as int - 'A' as int + 10)
    else if 'a' <= c <= 'f' then Some(c as int - 'a' as int + 10)
    else None
  }

  lemma HexRoundTrip(d: int)
    requires 0 <= d < 16
    ensures HexValue(HexDigit(d)) == Some(d)
  {
  }

  function PercentByte(b: Byte): (t: string)
    ensures |t| == 3 && t[0] == '%' && IsUpperHex(t[1]) && IsUpperHex(t[2])
  {
    ['%', HexDigit(b / 16), HexDigit(b % 16)]
  }

  function PercentBytes(bs: seq<Byte>): (t: string)
    ensures |t| == 3 * |bs|
    decreases |bs|
  {
    if |bs| == 0 then "" else PercentByte(bs[0]) + PercentBytes(bs[1..])
  }

  function EncodeChar(c: char): (t: string)
    ensures |t| > 0
  {
    if IsUnescaped(c) then [c] else PercentBytes(Utf8(c))
  }

  /** `encodeURIComponent(s)` for a well-formed string `s`. */
  function Encode(s: string): string
    decreases |s|
  {
    if |s| == 0 then "" else EncodeChar(s[0]) + Encode(s[1..])
  }

  /** The shape of `encodeURIComponent`'s output: unreserved characters and
      the marks `!*'()` stand for themselves, and `%` starts an escape of two
      upper-case hex digits. Nothing else occurs, so a query separator such
      as `&`, `=`, `+` or `#` never appears raw. */
  predicate IsPercentEncoded(t: string)
    decreases |t|
  {
    if |t| == 0 then true
    else if t[0] == '%' then |t| >= 3 && IsUpperHex(t[1]) && IsUpperHex(t[2]) && IsPercentEncoded(t[3..])
    else IsUnescaped(t[0]) && IsPercentEncoded(t[1..])
  }

  lemma {:induction false} IsPercentEncodedAppend(a: string, b: string)
    requires IsPercentEncoded(a) && IsPercentEncoded(b)
    ensures IsPercentEncoded(a + b)
    decreases |a|
  {
    if |a| == 0 {
      assert a + b == b;
    } else if a[0] == '%' {
      assert (a + b)[..3] == a[..3];
      assert (a + b)[3..] == a[3..] + b;
      IsPercentEncodedAppend(a[3..], b);
    } else {
      assert (a + b)[0] == a[0];
      assert (a + b)[1..] == a[1..] + b;
      IsPercentEncodedAppend(a[1..], b);
    }
  }

  lemma {:induction false} PercentBytesEncoded(bs: seq<Byte>)
    ensures IsPercentEncoded(PercentBytes(bs))
    decreases |bs|
  {
    if |bs| > 0 {
      var e := PercentByte(bs[0]);
      assert e[3..] == "";
      PercentBytesEncoded(bs[1..]);
      IsPercentEncodedAppend(e, PercentBytes(bs[1..]));
    }
  }

  /** Everything `encodeURIComponent` produces has that shape. */
  lemma {:induction false} EncodeIsPercentEncoded(s: string)
    ensures IsPercentEncoded(Encode(s))
    decreases |s|
  {
    if |s| > 0 {
      if IsUnescaped(s[0]) {
        assert EncodeChar(s[0])[1..] == "";
      } else {
        PercentBytesEncoded(Utf8(s[0]));
      }
      EncodeIsPercentEncoded(s[1..]);
      IsPercentEncodedAppend(EncodeChar(s[0]), Encode(s[1..]));
    }
  }

  // ---------------------------------------------------------------------------
  // Decoding

  /** The byte of a `%XY` escape at the front of `t`. */
  function ReadEscape(t: string): (r: Option<Byte>)
  {
    if |t| >= 3 && t[0] == '%' && HexValue(t[1]).Some? && HexValue(t[2]).Some? then
      Some(HexValue(t[1]).value * 16 + HexValue(t[2]).value)
    else
      None
  }

  /** Length of the UTF-8 sequence a lead byte announces; 0 for a byte that
      cannot start one (a continuation byte, or five or more leading ones). */
  function SequenceLength(b: Byte): nat {
    if b < 0x80 then 1
    else if b < 0xC0 then 0
    else if b < 0xE0 then 2
    else if b < 0xF0 then 3
    else if b < 0xF8 then 4
    else 0
  }

  /** The payload bits of a lead byte of an `n`-byte sequence. */
  function LeadBits(b: Byte, n: nat): int {
    if n == 2 then b - 0xC0 else if n == 3 then b - 0xE0 else b - 0xF0
  }

  /** The smallest code point that needs `n` bytes: anything below is an
      overlong encoding, which the decoder rejects. */
  function MinCodePoint(n: nat): int {
    if n == 2 then 0x80 else if n == 3 then 0x800 else 0x1_0000
  }

  /** Reads `count` continuation escapes, shifting six bits of each into `acc`. */
  function ReadContinuations(t: string, count: nat, acc: int): Option<int>
    decreases count
  {
    if count == 0 then Some(acc)
    else
      match ReadEscape(t)
      case None => None
      case Some(b) =>
        if 0x80 <= b < 0xC0 then ReadContinuations(t[3..], count - 1, acc * 0x40 + (b - 0x80)) else None
  }

  /** Decodes the character at the front of a non-empty `t`, with the number of
      input characters it used; `None` is the URIError of `decodeURIComponent`. */
  function DecodeStep(t: string): (r: Option<(char, nat)>)
    requires |t| > 0
    ensures r.Some? ==> 0 < r.value.1 <= |t|
  {
    if t[0] != '%' then Some((t[0], 1))
    else
      match ReadEscape(t)
      case None => None
      case Some(b) =>
        var n := SequenceLength(b);
        if n == 0 then None
        else if n == 1 then Some((b as char, 3))
        else if |t| < 3 * n then None
        else
          match ReadContinuations(t[3..], n - 1, LeadBits(b, n))
          case None => None
          case Some(v) => if IsScalar(v) && v >= MinCodePoint(n) then Some((v as char, 3 * n)) else None
  }

  /** `decodeURIComponent(t)`; `None` when it would throw a URIError. */
  function Decode(t: string): Option<string>
    decreases |t|
  {
    if |t| == 0 then Some("")
    else
      match DecodeStep(t)
      case None => None
      case Some((c, k)) =>
        match Decode(t[k..])
        case None => None
        case Some(rest) => Some([c] + rest)
  }

  // ---------------------------------------------------------------------------
  // Round trip

  lemma ReadEscapeOfPercentByte(b: Byte, rest: string)
    ensures ReadEscape(PercentByte(b) + rest) == Some(b)
  {
    HexRoundTrip(b / 16);
    HexRoundTrip(b % 16);
  }

  /** The value `ReadContinuations` accumulates from continuation bytes `bs`. */
  function Accumulate(acc: int, bs: seq<Byte>): int
    decreases |bs|
  {
    if |bs| == 0 then acc else Accumulate(acc * 0x40 + (bs[0] as int - 0x80), bs[1..])
  }

  lemma {:induction false} ReadContinuationsOfPercentBytes(bs: seq<Byte>, rest: string, acc: int)
    requires forall k :: 0 <= k < |bs| ==> 0x80 <= bs[k] < 0xC0
    ensures ReadContinuations(PercentBytes(bs) + rest, |bs|, acc) == Some(Accumulate(acc, bs))
    decreases |bs|
  {
    if |bs| > 0 {
      var t := PercentBytes(bs) + rest;
      assert t == PercentByte(bs[0]) + (PercentBytes(bs[1..]) + rest);
      ReadEscapeOfPercentByte(bs[0], PercentBytes(bs[1..]) + rest);
      assert t[3..] == PercentBytes(bs[1..]) + rest;
      ReadContinuationsOfPercentBytes(bs[1..], rest, acc * 0x40 + (bs[0] - 0x80));
    }
  }

  /** The lead byte announces the right length, and the continuation bytes
      carry back exactly the code point. */
  lemma Utf8Decodes(c: char)
    requires c as int >= 0x80
    ensures var bs := Utf8(c); var n := |bs|;
            && SequenceLength(bs[0]) == n
            && (forall k :: 1 <= k < n ==> 0x80 <= bs[k] < 0xC0)
            && Accumulate(LeadBits(bs[0], n), bs[1..]) == c as int
            && MinCodePoint(n) <= c as int
  {
    var cp := c as int;
    var bs := Utf8(c);
    if cp < 0x800 {
      assert bs[1..] == [0x80 + cp % 0x40];
    } else if cp < 0x1_0000 {
      assert bs[1..] == [0x80 + cp / 0x40 % 0x40, 0x80 + cp % 0x40];
      assert LeadBits(bs[0], 3) == cp / 0x1000;
      AccumulateThree(cp);
    } else {
      assert bs[1..] == [0x80 + cp / 0x1000 % 0x40, 0x80 + cp / 0x40 % 0x40, 0x80 + cp % 0x40];
      assert LeadBits(bs[0], 4) == cp / 0x4_0000;
      AccumulateFour(cp);
    }
  }

  lemma AccumulateLastSix(cp: int)
    requires cp >= 0
    ensures Accumulate(cp / 0x40, [0x80 + cp % 0x40]) == cp
  {
    var last: seq<Byte> := [0x80 + cp % 0x40];
    assert last[1..] == [];
  }

  lemma AccumulateFour(cp: int)
    requires 0x1_0000 <= cp < 0x11_0000
    ensures Accumulate(cp / 0x4_0000, [0x80 + cp / 0x1000 % 0x40, 0x80 + cp / 0x40 % 0x40, 0x80 + cp % 0x40]) == cp
  {
    var tail: seq<Byte> := [0x80 + cp / 0x1000 % 0x40, 0x80 + cp / 0x40 % 0x40, 0x80 + cp % 0x40];
    assert tail[1..] == [0x80 + cp / 0x40 % 0x40, 0x80 + cp % 0x40];
    assert cp / 0x4_0000 * 0x40 + cp / 0x1000 % 0x40 == cp / 0x1000;
    AccumulateThree(cp);
  }

  lemma AccumulateThree(cp: int)
    requires cp >= 0
    ensures Accumulate(cp / 0x1000, [0x80 + cp / 0x40 % 0x40, 0x80 + cp % 0x40]) == cp
  {
    var tail: seq<Byte> := [0x80 + cp / 0x40 % 0x40, 0x80 + cp % 0x40];
    assert tail[1..] == [0x80 + cp % 0x40];
    assert cp / 0x1000 * 0x40 + cp / 0x40 % 0x40 == cp / 0x40;
    AccumulateLastSix(cp);
  }

  lemma DecodeStepOfEncodeChar(c: char, rest: string)
    ensures DecodeStep(EncodeChar(c) + rest) == Some((c, |EncodeChar(c)|))
  {
    var t := EncodeChar(c) + rest;
    if !IsUnescaped(c) {
      var bs := Utf8(c);
      var n := |bs|;
      assert t == PercentByte(bs[0]) + (PercentBytes(bs[1..]) + rest);
      ReadEscapeOfPercentByte(bs[0], PercentBytes(bs[1..]) + rest);
      if n > 1 {
        Utf8Decodes(c);
        assert t[3..] == PercentBytes(bs[1..]) + rest;
        ReadContinuationsOfPercentBytes(bs[1..], rest, LeadBits(bs[0], n));
      }
    }
  }

  /** `decodeURIComponent(encodeURIComponent(s)) === s` for every well-formed `s`. */
  lemma {:induction false} DecodeEncode(s: string)
    ensures Decode(Encode(s)) == Some(s)
    decreases |s|
  {
    if |s| > 0 {
      var t := Encode(s);
      DecodeStepOfEncodeChar(s[0], Encode(s[1..]));
      assert t[|EncodeChar(s[0])|..] == Encode(s[1..]);
      DecodeEncode(s[1..]);
      assert [s[0]] + s[1..] == s;
    }
  }

  /** Encoding is injective: different strings never share an encoding. */
  lemma EncodeInjective(a: string, b: string)
    ensures Encode(a) == Encode(b) <==> a == b
  {
    if Encode(a) == Encode(b) {
      DecodeEncode(a);
      DecodeEncode(b);
    }
  }
}

=== FILE: wrappers.dfy ===
/** The wrappers shared by the whole model: `Option` stands for
    a JavaScript value that may be `null`/`undefined`, `Result` for a call that
    either returns or throws. */
module Wrappers {

  datatype Option<+T> = None | Some(value: T) {

    /** Returns the wrapped value, or `default` when there is none (`x ?? default`). */
    function GetOr(default: T): T {
      match this
      case Some(v) => v
      case None => default
    }
  }

  /** `Ok` is a normal return, `Err` a thrown error carrying its message. */
  datatype Result<+R, +E> = Ok(value: R) | Err(error: E)
}
